=== FILE: README.md ===
# Link layer over a serial line — a Dafny model

This project models the link layer of a point-to-point serial protocol, as
`code_project/src/link_layer.c` implements it, together with the two earlier
stand-alone programs `write_noncanonical.c` (transmitter) and
`read_noncanonical.c` (receiver). The model covers:

- **Wire constants** (`Wire`, from `code_project/include/link_layer.h`):
  - FLAG, ESC, the address and command octets and the payload ceiling;
  - the sequence macro `N(s)`;
  - the recogniser state enumeration. It has one extra state, `Bogus`, for
    the value FLAG that the code stores into the state variable.
- **Frame builders** (`Frames`):
  - the five-octet SET and UA frames;
  - the information frame of `create_frame`: the header with `N(frame_numb)`,
    the octet-stuffed payload (0x7E → 7D 5E, 0x7D → 7D 5D), the unstuffed XOR
    checksum BCC2 and the closing flag;
  - the builder both as a function and as the loop the code runs.
- **Byte-at-a-time recognisers** (`Recognisers`):
  - `state_machine_UA` and `state_machine_set`, one machine parameterised by
    the address and command it expects;
  - `state_machine_RR_REJ`, which also records the control value and the
    caller's `isRej` flag, with the code's arithmetic on `C_RR0` and `C_REJ`.
- **Bounded-retry loops** (`Retry`): `sendSetFrame`, `sendUAFrame` and `llwrite`.
  - Each is a recursive function over a finite trace of events. An event is
    a read of one octet, an empty read, a read error, or the expiry of the
    pending alarm.
  - The globals shared between calls travel in a `Link` value: `alarmEnabled`,
    `alarmCount`, the pending alarm, `state_command`, `control` and
    `frame_numb`.
  - Each loop either returns, ends with the trace (`Waiting`), or spins forever
    without reading again (`Hung`).
- **The earlier programs** (`Prototype`):
  - `isUA` and `isSet`;
  - the transmitter's `sendSetFrame`, which zeroes the read buffer and ignores
    the read's result;
  - the transmitter's `llwrite`, which reads into a fresh buffer;
  - the receiver's main loop and the UA reply it builds.

Sleep, `printf`, the serial-port calls and the signal handler are not modelled
as code. A read becomes an event in the trace. An alarm expiry becomes an
event whose effect is the handler's: `alarmEnabled` is cleared and
`alarmCount` goes up by one. An expiry only has an effect while an alarm is
pending. A write is counted, and is assumed to write the whole frame.

### Where the code departs from the intended protocol

The intended protocol is an HDLC-style stop-and-wait ARQ (automatic repeat
request) scheme: a SET/UA handshake, information frames numbered 0 and 1,
and RR (receiver ready) or REJ (reject) replies, with REJ answered by a
resend. Where the code's own comments state that intent, they are cited
below. The model follows the code in each of these cases:

- **BCC2 is not stuffed.** The protocol stuffs the payload and BCC2. `create_frame`
  stuffs only the payload, so a payload whose checksum is 0x7E puts a bare
  FLAG before the closing one (`Frames.UnstuffedBcc2CanBeFlag`).
- **Repeated flags do not resynchronise.** The protocol restarts a frame on every
  FLAG. The recognisers store FLAG into the state variable; the next octet
  falls to `default` and goes back to START. So spurious flags before a frame
  are harmless only when their number is a multiple of three
  (`Recognisers.LeadingFlagsRecognisedIffMultipleOfThree`).
- **The RR/REJ octets differ from the nominal ones.** The protocol uses
  RR(0)=0xAA, RR(1)=0xAB, REJ(0)=0x54 and REJ(1)=0x55.
  - `state_machine_RR_REJ` takes `C_RR0 + n%2 + 1` as the acknowledgement.
  - It takes `C_RR0 + n%2` as a rejection, and then expects a BCC1 built
    from `C_REJ + n%2`.
  - As a result the nominal REJ frame is never recognised
    (`Recognisers.NominalRejectionIgnored`,
    `Recognisers.NominalAcknowledgementsOfOddFrame`).
- **A rejection does not cause a resend by itself.** The comment at
  `code_project/src/link_layer.c:498` says a rejection should lead to another
  try. After a rejection `llwrite` cancels the alarm but leaves `alarmEnabled`
  TRUE. So, unless that alarm expired within the same iteration, `llwrite`
  never writes again and never returns (`Retry.RejectionLeadsToFinalState`,
  `Retry.RejectionIsFinal`).
- **llwrite does not give up.** The protocol fails a write after the retries are
  exhausted. In `llwrite`, once `alarmCount` reaches `nRetransmissions` the
  outer loop spins, and its `return -1` cannot be reached
  (`Retry.SilentChannelHangsLlwrite`).
- **llwrite's return value** is the count the last write reported, not the
  payload length. That is the size of the stuffed frame, or 0 when the call
  wrote nothing because an earlier alarm was still running
  (`code_project/src/link_layer.c:470`, `:508`).
- **Idle gaps are not treated specially.** The protocol starts a fresh frame at
  the next FLAG after an idle gap. `sendUAFrame` feeds the stale octet again
  on an empty read, which can lose the SET that follows
  (`Retry.IdleGapAfterFlagLosesSet`).

## Model

| member | source | states |
|---|---|---|
| Wire.N | code_project/include/link_layer.h:39 | the sequence bit is 0x00 or 0x40, and 0x00 exactly for even frame numbers |
| Wire.SequenceBitAlternates | code_project/include/link_layer.h:39 | consecutive frame numbers carry different sequence bits; numbers two apart carry the same one |
| Wire.StateValue | code_project/include/link_layer.h:42-51 | the eight enumerators are the values 0..7, and the out-of-range state is the value FLAG |
| Wire.StateValueInjective | code_project/include/link_layer.h:42-51 | distinct model states are distinct C values, so FLAG needs a state of its own |
| Frames.ControlFrame | code_project/src/link_layer.c:251-266 | a supervisory frame is FLAG, A, C, A^C, FLAG |
| Frames.SetFrame | code_project/src/link_layer.c:251-257 | createSetFrame writes exactly 7E 03 03 00 7E, whose octet 3 is octet 1 XOR octet 2 |
| Frames.UaFrame | code_project/src/link_layer.c:260-266 | createUAFrame writes exactly 7E 01 07 06 7E, whose octet 3 is octet 1 XOR octet 2 |
| Frames.HeadersAreTransparent | code_project/include/link_layer.h:31-39 | no address, command or BCC1 octet of the SET, UA or information-frame headers is FLAG or ESC |
| Frames.Specials | code_project/src/link_layer.c:278-296 | the count of octets stuffing doubles is at most the payload length, and zero exactly for payloads with no FLAG or ESC |
| Frames.Stuff | code_project/src/link_layer.c:278-296 | the stuffed payload is one octet longer than the payload for each FLAG or ESC it holds |
| Frames.StuffIdentityIffPlain | code_project/src/link_layer.c:278-296 | stuffing leaves a payload unchanged if and only if it has no FLAG or ESC |
| Frames.StuffAppend | code_project/src/link_layer.c:278-296 | stuffing distributes over concatenation, octet by octet |
| Frames.StuffRoundTrip | code_project/src/link_layer.c:278-296 | replacing each ESC x of the stuffed payload by x^0x20 gives back the payload, for every payload |
| Frames.StuffIsTransparent | code_project/src/link_layer.c:278-296 | the stuffed payload contains no FLAG, and every ESC in it is followed by 0x5E or 0x5D |
| Frames.TransparentIsStuffed | code_project/src/link_layer.c:278-296 | conversely, every octet string with those two properties is the stuffing of the payload it decodes to |
| Frames.CreateFrame | code_project/src/link_layer.c:269-303 | the frame has length 6 + bufSize + #FLAG/ESC octets, at most 2*bufSize+6, the header FLAG, A_SENDER, N(frame_numb), A_SENDER^N(frame_numb), and a closing FLAG |
| Frames.CreateFrameInvertible | code_project/src/link_layer.c:278-298 | the region between header and BCC2 is transparent and decodes to the payload, and the penultimate octet is the XOR of the unstuffed payload |
| Frames.Bcc2DetectsSingleOctetError | code_project/src/link_layer.c:295 | changing any single payload octet changes BCC2 |
| Frames.UnstuffedBcc2CanBeFlag | code_project/src/link_layer.c:298-300 | BCC2 is written unstuffed: the payload 7E gives the frame 7E 03 00 03 7D 5E 7E 7E |
| Frames.BuildFrame | code_project/src/link_layer.c:269-303 | the loop that stuffs and checksums octet by octet builds exactly the frame above and returns its length |
| Recognisers.StepControl | code_project/src/link_layer.c:48-111 | END is reached only from BCC1_OK on FLAG; in START only FLAG advances; a wrong octet in FLAG_RCV, A_RCV or C_RCV goes to START, or to the out-of-range state if it is FLAG; DATA, BCC2_OK, END and the out-of-range state go to START on any octet |
| Recognisers.RunControlSound | code_project/src/link_layer.c:48-111 | from any state, the part of the frame the final state claims to have seen is a suffix of what the start state claimed plus the octets fed |
| Recognisers.RunControlEndsOnFrame | code_project/src/link_layer.c:185-248 | from START a recogniser reaches END only if the last five octets fed were FLAG, A, C, A^C, FLAG for its own A and C |
| Recognisers.FrameRecognisedOnlyFromStart | code_project/src/link_layer.c:48-111 | feeding exactly the frame reaches END if and only if the recogniser was in START |
| Recognisers.FlagRunCycles | code_project/src/link_layer.c:52-111 | from START, a run of k flags ends in START, FLAG_RCV or the out-of-range state as k mod 3 is 0, 1 or 2 |
| Recognisers.LeadingFlagsRecognisedIffMultipleOfThree | code_project/src/link_layer.c:52-111 | k spurious flags before a frame let it be recognised if and only if k is a multiple of three |
| Recognisers.ForeignOctetResynchronises | code_project/src/link_layer.c:107-109 | one octet that occurs nowhere in the frame, followed by the frame, reaches END from every state |
| Recognisers.ControlOctetsAsWritten | code_project/src/link_layer.c:139-147 | the acknowledgement octet is C_RR0 + n%2 + 1, the rejection octet is C_RR0 + n%2, and the control recorded for a rejection is C_REJ + n%2; the acknowledgement of an even frame is the rejection octet of an odd one |
| Recognisers.StepAck | code_project/src/link_layer.c:113-182 | isRej is only ever raised, and only by the rejection octet in A_RCV; in A_RCV the acknowledgement octet records itself as control and leaves isRej alone, while the rejection octet records C_REJ + n%2 and raises isRej; BCC1_OK needs A_RECEIVER ^ control; END needs FLAG in BCC1_OK |
| Recognisers.StepAckConsistent | code_project/src/link_layer.c:138-167 | once past A_RCV, the recorded control is the acknowledgement, or the rejection control with isRej raised |
| Recognisers.RunAckSound | code_project/src/link_layer.c:113-182 | over any octets the RR/REJ machine keeps that consistency, never clears isRej, and claims only a suffix of what it was fed |
| Recognisers.RunAckEndsOnAcceptedFrame | code_project/src/link_layer.c:113-182 | from START, END means the last five octets were the acknowledgement frame or the rejection frame; without isRej they were the acknowledgement; a rejection frame always leaves isRej raised |
| Recognisers.AcceptedFramesComplete | code_project/src/link_layer.c:113-182 | from START each accepted frame reaches END, recording the control and isRej the code records |
| Recognisers.AcceptedFrameOctets | code_project/src/link_layer.c:139-167 | the frames accepted are 7E 01 AB AA 7E and 7E 01 AA 55 7E for even frames, and 7E 01 AC AD 7E and 7E 01 AB 54 7E for odd ones |
| Recognisers.NominalRejectionIgnored | code_project/src/link_layer.c:138-154 | a frame carrying C_REJ + n%2 as its command never completes |
| Recognisers.NominalAcknowledgementsOfOddFrame | code_project/src/link_layer.c:138-167 | for an odd frame the nominal RR(0) frame is ignored, and the nominal RR(1) frame completes nothing but raises isRej |
| Retry.ArmIfIdle | code_project/src/link_layer.c:323-327 | the loop head arms an alarm only when alarmEnabled is FALSE, and leaves the count and the recogniser alone |
| Retry.Settle | code_project/src/link_layer.c:496-514 | after an octet the globals hold the machine's state and control, and the pending alarm is cancelled once a frame is complete |
| Retry.SetLoop | code_project/src/link_layer.c:321-360 | the retry invariant holds, so at most nRetransmissions frames are written; only 0 or -1 is returned; 0 means END was reached (and only then, unless the loop started in END); -1 means the retry limit was reached or the last read failed; a failed read always ends the call at once with -1 |
| Retry.SetLoopFollowsRecogniser | code_project/src/link_layer.c:336-354 | the recogniser state sendSetFrame leaves behind is the UA recogniser run over the octets read; empty reads and alarm expiries feed nothing |
| Retry.SetLoopStopsAtFirstEnd | code_project/src/link_layer.c:336-354 | the loop returns at the first octet read that brings the UA recogniser to END: no octet read before the last event consumed did so |
| Retry.SendSetFrame | code_project/src/link_layer.c:305-361 | with alarmCount and the recogniser reset: at most nRetransmissions writes, 0 exactly at END (a call that ends in END has returned 0), -1 only on the retry limit or a read error, and always -1 at once on a read error |
| Retry.SendSetFrameFollowsRecogniser | code_project/src/link_layer.c:313-354 | the state sendSetFrame leaves behind is the UA recogniser run from START over the octets read |
| Retry.SendSetFrameStopsAtFirstUa | code_project/src/link_layer.c:313-354 | from the reset START, no octet read before sendSetFrame's last event completes a UA frame, so it returns at the first UA and reads no further |
| Retry.SendSetFrameSound | code_project/src/link_layer.c:336-354 | sendSetFrame returns 0 only once the last five octets read were the UA frame |
| Retry.SendSetFrameAcceptsUa | code_project/src/link_layer.c:305-354 | a UA frame answered to the first SET completes the handshake after exactly five reads, whatever the trace holds after it |
| Retry.SilentChannelExhaustsRetries | code_project/src/link_layer.c:321-360 | when every SET goes unanswered and each alarm expires, sendSetFrame returns -1 after exactly nRetransmissions writes |
| Retry.SendUaFrame | code_project/src/link_layer.c:364-398 | sendUAFrame returns 0 exactly when the SET recogniser reaches END, and only then writes the UA frame; it returns -1 exactly at the first failed read and writes nothing; it never times out |
| Retry.SendUaFrameFollowsRecogniser | code_project/src/link_layer.c:372-387 | the final state is the SET recogniser run over the octets fed, where an empty read feeds the stale octet again and a failed read feeds nothing |
| Retry.SendUaFrameStopsAtFirstEnd | code_project/src/link_layer.c:372-387 | sendUAFrame breaks out at the first octet fed that brings the SET recogniser to END: no shorter prefix of its input does |
| Retry.SendUaFrameAcceptsSet | code_project/src/link_layer.c:364-398 | a SET frame read from START is answered with the UA frame after exactly five reads, whatever the input holds after it |
| Retry.SendUaFrameSound | code_project/src/link_layer.c:372-397 | sendUAFrame answers only after the last five octets fed were the SET frame |
| Retry.IdleGapAfterFlagLosesSet | code_project/src/link_layer.c:372-387 | an empty read right after the opening flag feeds that flag again, and the SET that follows is not recognised |
| Retry.WriteLoop | code_project/src/link_layer.c:474-518 | the retry invariant holds; a return happens only at END without isRej, returns the frame size when a frame was written, and advances frame_numb by exactly one; otherwise frame_numb is unchanged; the loop hangs only at the retry limit; a raised isRej stays raised and blocks every return; conversely, a call that does not return never ends at END without isRej, so reaching that state always returns |
| Retry.Llwrite | code_project/src/link_layer.c:449-519 | an oversized payload returns -1 with nothing built or written; no other call returns a negative value; a success returns the stuffed frame's size if this call wrote the frame and 0 otherwise, and advances frame_numb by one; a call that does not return leaves frame_numb alone and never ends at END without isRej |
| Retry.WriteLoopFollowsMachine | code_project/src/link_layer.c:477-513 | the state, control and isRej llwrite leaves behind are the RR/REJ machine run over the octets fed, where every read feeds the buffer, refilled or not |
| Retry.WriteLoopStopsAtFirstAck | code_project/src/link_layer.c:494-509 | the loop returns at the first read that completes the acknowledgement: no read before its last event consumed did so |
| Retry.LlwriteStopsAtFirstAck | code_project/src/link_layer.c:469-509 | from the reset START, no read before llwrite's last event completes the acknowledgement for frame_numb, so it returns at the first one and reads no further |
| Retry.WriteLoopReturnsOnAck | code_project/src/link_layer.c:477-509 | when the octets read complete the acknowledgement, the loop returns at the octet that completes it, whatever follows in the trace, with the size of the frame if its first iteration wrote it and 0 otherwise |
| Retry.LlwriteAcceptsAck | code_project/src/link_layer.c:449-509 | the acknowledgement frame answered to the first write completes llwrite after exactly five reads and one write, whatever the trace holds after it, returning the frame's size |
| Retry.LlwriteSound | code_project/src/link_layer.c:469-509 | llwrite returns a byte count only after the last five octets fed were the acknowledgement frame for the current frame number |
| Retry.RejectionLeadsToFinalState | code_project/src/link_layer.c:496-514 | a completed rejection cancels the alarm but leaves alarmEnabled TRUE, when no alarm expires within that iteration |
| Retry.RejectionIsFinal | code_project/src/link_layer.c:474-518 | from that state llwrite never writes again and never returns |
| Retry.NoExpiryNoWrite | code_project/src/link_layer.c:477-491 | with alarmEnabled TRUE and no alarm expiry, the loop writes nothing |
| Retry.FirstWriteWaitsForOpeningAlarm | code_project/src/link_layer.c:343-354 | when no alarm expires within sendSetFrame's returning iteration, sendSetFrame returns 0 with alarmEnabled TRUE and its alarm pending, so the llwrite that follows writes nothing until that alarm expires |
| Retry.SilentChannelHangsLlwrite | code_project/src/link_layer.c:474-518 | on a channel that never answers, llwrite writes the frame exactly nRetransmissions times and then spins forever: its -1 is never reached |
| Retry.SuccessfulWritesAlternate | code_project/src/link_layer.c:499-509 | after a successful llwrite the next frame carries the other sequence bit |
| Prototype.IsUa | write_noncanonical.c:51-53 | isUA holds if and only if the first five octets are 7E 01 07 06 7E |
| Prototype.IsUaIffRecognised | write_noncanonical.c:51-128 | isUA holds if and only if feeding the first five octets to the UA recogniser from START reaches END |
| Prototype.SendSetFrame | write_noncanonical.c:201-249 | at most nRetransmissions writes; -1 only at the retry limit, since the read's result is ignored; 0 exactly at END unless the recogniser was already in END |
| Prototype.SendSetFrameFollowsRecogniser | write_noncanonical.c:212-244 | the final state is the UA recogniser, not reset on entry, run over the octets read, with empty reads taken as 0x00 |
| Prototype.SendSetFrameStopsAtFirstUa | write_noncanonical.c:212-244 | the prototype's sendSetFrame returns at the first read whose octet, 0x00 for an empty read, completes a UA frame from wherever the recogniser was |
| Prototype.ZeroOctetResetsUa | write_noncanonical.c:71-128 | 0x00 sends every state of the UA recogniser to START |
| Prototype.EmptyReadRestartsUa | write_noncanonical.c:229-236 | an empty read while waiting for UA throws away every part of a UA already recognised |
| Prototype.Llwrite | write_noncanonical.c:369-436 | an oversized payload returns -1 with nothing written; a success returns the frame size if this call wrote the frame and 0 otherwise, advances frame_numb by one and leaves the recogniser in END; no other return; unless entered in END, a call that does not return never ends at END without isRej |
| Prototype.LlwriteStopsAtFirstAck | write_noncanonical.c:392-425 | the prototype's llwrite returns at the first polled octet that completes the acknowledgement from the state it was entered in |
| Prototype.FirstAckLostAfterOpen | write_noncanonical.c:369-413 | llwrite does not reset the recogniser, so entered in END, where a successful sendSetFrame leaves it, the first acknowledgement frame is not recognised |
| Prototype.LlwriteAcceptsAck | write_noncanonical.c:369-413 | entered in START, llwrite returns on the acknowledgement frame after exactly five polls and one write, whatever is polled after it, with the frame's size |
| Prototype.IsSet | read_noncanonical.c:32-34 | isSet holds if and only if the first five octets are 7E 03 03 00 7E |
| Prototype.IsSetIffRecognised | read_noncanonical.c:32-94 | isSet holds if and only if feeding the first five octets to state_machine from START reaches END |
| Prototype.AwaitSet | read_noncanonical.c:166-191 | the loop stops only at END and then writes exactly the UA frame; otherwise it reads on and writes nothing |
| Prototype.AwaitSetFollowsRecogniser | read_noncanonical.c:166-177 | the final state is the SET recogniser run over the octets read, with empty reads taken as 0x00 |
| Prototype.ReceiveSet | read_noncanonical.c:165-191 | starting in START, the receiver answers exactly when the recogniser reaches END, and the answer is the UA frame |
| Prototype.ReceiveSetSound | read_noncanonical.c:165-191 | the receiver answers only after the last five octets fed were the SET frame |
| Prototype.AwaitSetStopsAtFirstEnd | read_noncanonical.c:166-177 | the loop stops at the first octet that brings the recogniser to END, not later |
| Prototype.EmptyReadAcceptedAsBcc1 | read_noncanonical.c:168-170 | a SET whose BCC1 read comes back empty is still accepted, because the zeroed octet equals that BCC1 |
| Prototype.UaReply | read_noncanonical.c:182-188 | the reply built octet by octet is exactly 7E 01 07 06 7E |

## Left out

- Serial port and terminal setup (`openSerialPort`, termios, `tcsetattr`), `sleep` and `close`: I/O plumbing. Reads are events in the trace, and writes are counted and assumed complete.
- The `SIGALRM` handler and `alarm()`: there are no signals. An expiry is a trace event, applied at the loop head. An expiry that falls inside an iteration is modelled as one at the next head. The two agree except in four windows, each named on its own line below: between the head test `alarmCount < nRetransmissions` and `if (alarmEnabled == FALSE)` (`code_project/src/link_layer.c:321-323`, `:477-479`; see `Retry.SetLoop` and `Retry.WriteLoop`); the iteration of `sendSetFrame` that returns 0 (`:333-353`; see `Retry.FirstWriteWaitsForOpeningAlarm`); the iteration of `llwrite` that returns on an acknowledgement (`:486-508`; see `Retry.Llwrite`); and the iteration of `llwrite` that completes a rejection frame (`:494-502`; see `Retry.RejectionLeadsToFinalState`).
- `llopen`: the role dispatch, the opening of the port and the copying of the configuration. `nRetransmissions` and `timeout` are the `Config` parameter.
- `llread`: it is an unimplemented stub that returns 0, so the model has no information-frame receiver. `Frames.Unstuff` is only a reference decoder for the stuffing lemmas.
- `llclose` and its statistics: the counters are never updated; the function only prints and closes the port.
- `code_project/src/application_layer.c` and the `main` functions: argument handling, `printf`, and calls into the link layer.
- `malloc`/`free` and the leaks in the loops. The transmitter prototype's fresh unzeroed buffer is modelled as an octet of unknown value (`Prototype.Poll`).
- Integer widths. `frame_numb` is a `nat`; an `int` overflow after 2^31 frames is not modelled. A negative `bufSize` is not modelled either, since a payload is a sequence.
- `state_machine_UA` and `state_machine_RR_REJ` of `write_noncanonical.c` and `state_machine` of `read_noncanonical.c` are the same machines as in `link_layer.c`, given the constants assumed below. They are modelled once, in `Recognisers`.
- `Retry.RejectionLeadsToFinalState`: it holds only when no alarm expires inside the iteration that completes the rejection. If `SIGALRM` arrives during that iteration's read or `printf` (`code_project/src/link_layer.c:494-501`), the handler clears `alarmEnabled` before the `break`. Then `alarm(0)` finds nothing pending, and the next head re-arms and resends. The model applies expiries only at the loop head, so after `Retry.Settle` has cancelled the pending alarm, that expiry does nothing. `Retry.RejectionIsFinal` is exact from the state it starts in.
- The ensures of `Retry.SetLoop`, `Retry.SendSetFrame`, `Retry.SendUaFrame`, `Retry.WriteLoop`, `Retry.Llwrite`, `Prototype.SendSetFrame` and `Prototype.Llwrite` tie the return to the final recogniser state only; that each returns at the first octet completing its frame, reading no further, is a statement about every prefix of the trace, proved in `Retry.SetLoopStopsAtFirstEnd`, `Retry.SendSetFrameStopsAtFirstUa`, `Retry.SendUaFrameStopsAtFirstEnd`, `Retry.WriteLoopStopsAtFirstAck`, `Retry.LlwriteStopsAtFirstAck`, `Prototype.SendSetFrameStopsAtFirstUa` and `Prototype.LlwriteStopsAtFirstAck`.
- Retry.SetLoop: the bound of at most nRetransmissions frames written (`Retry.Budget`, `writes <= Cap(cfg)`) holds only because expiries are taken at the loop head. In the C, a `SIGALRM` that arrives after the head test `alarmCount < nRetransmissions` (`code_project/src/link_layer.c:321`) has passed with alarmCount equal to nRetransmissions-1, and before `if (alarmEnabled == FALSE)` (`:323`), makes that iteration write an (nRetransmissions+1)-th SET; a UA answering it still makes the call return 0. The model re-tests the head after every expiry and never writes that frame. Its clause `Returned(0) ==> alarmEnabled` likewise assumes no expiry within the returning iteration (see `Retry.FirstWriteWaitsForOpeningAlarm`).
- Retry.SendSetFrame: inherits both exclusions of `Retry.SetLoop`: the extra SET written in the window between `code_project/src/link_layer.c:321` and `:323`, which its write bound leaves out, and an expiry within the iteration that returns 0.
- Retry.WriteLoop: the same window between the head test (`code_project/src/link_layer.c:477`) and `if (alarmEnabled == FALSE)` (`:479`) lets the C `llwrite` write an (nRetransmissions+1)-th information frame and still return on its acknowledgement; the model's bound `writes <= Cap(cfg)` (`Retry.Budget`) excludes that frame.
- Retry.Llwrite: inherits the window of `Retry.WriteLoop`. In addition, if `SIGALRM` arrives during the `sleep(1)` or the read of the iteration that returns on an acknowledgement (`code_project/src/link_layer.c:486-508`), the C returns with alarmEnabled FALSE and the next `llwrite` writes at once; the model returns with the alarm still enabled and pending, and takes that expiry at the next call's first head.
- Retry.FirstWriteWaitsForOpeningAlarm: holds only when no alarm expires within the iteration of `sendSetFrame` that returns 0. If `SIGALRM` arrives during that iteration's `sleep(1)` (`code_project/src/link_layer.c:333`) or its read (`:338`), before `return 0` (`:350-353`), the handler clears alarmEnabled, `sendSetFrame` returns 0 with alarmEnabled FALSE, and the `llwrite` that follows writes its frame at once.
- `serial_port.h`, `msg_bytes.h` and `states.h` are not part of this model. The prototypes take their octet constants and state enumerators from them; these are assumed equal to those of `code_project/include/link_layer.h`. `write_noncanonical.c` also includes a `link_layer.h` of its own, which is assumed to match as well.

=== FILE: frames.dfy ===
/**
  Frame builders of the transmitter (createSetFrame, createUAFrame and
  create_frame in code_project/src/link_layer.c, duplicated in
  write_noncanonical.c): fixed five-octet supervisory frames and the
  information frame with its octet-stuffed payload and XOR checksum BCC2.
 */
module Frames {
  import opened Wire

  /** FLAG, A, C, BCC1 = A ^ C, FLAG */
  function ControlFrame(a: byte, c: byte): (f: seq<byte>)
    ensures |f| == 5 && f[0] == Flag && f[4] == Flag
    ensures f[1] == a && f[2] == c && f[3] == f[1] ^ f[2]
  {
    [Flag, a, c, a ^ c, Flag]
  }

  /** The SET frame sent by the transmitter to open the link */
  function SetFrame(): (f: seq<byte>)
    ensures f == [0x7E, 0x03, 0x03, 0x00, 0x7E]
    ensures f[3] == f[1] ^ f[2]
  {
    ControlFrame(ASender, CSet)
  }

  /** The UA frame the receiver answers a SET with */
  function UaFrame(): (f: seq<byte>)
    ensures f == [0x7E, 0x01, 0x07, 0x06, 0x7E]
    ensures f[3] == f[1] ^ f[2]
  {
    ControlFrame(AReceiver, CUa)
  }

  /** Header of an information frame carrying frame number n */
  function Header(n: nat): seq<byte>
  {
    [Flag, ASender, N(n), ASender ^ N(n)]
  }

  /** No address, command or BCC1 octet of the frames built here is a delimiter or an escape */
  lemma HeadersAreTransparent(n: nat)
    ensures forall i | 1 <= i < 4 :: Header(n)[i] != Flag && Header(n)[i] != Esc
    ensures forall i | 1 <= i < 4 :: SetFrame()[i] != Flag && SetFrame()[i] != Esc
    ensures forall i | 1 <= i < 4 :: UaFrame()[i] != Flag && UaFrame()[i] != Esc
  {
  }

  /** Running XOR of the octets, folded left to right as the BCC2 loop does */
  function Xor(bs: seq<byte>): byte
  {
    if |bs| == 0 then 0 else Xor(bs[..|bs| - 1]) ^ bs[|bs| - 1]
  }

  /** True of the two octets that must be escaped */
  predicate Special(b: byte)
  {
    b == Flag || b == Esc
  }

  /** Number of octets of bs that stuffing doubles */
  function Specials(bs: seq<byte>): (k: nat)
    ensures k <= |bs|
    ensures k == 0 <==> forall i | 0 <= i < |bs| :: !Special(bs[i])
  {
    if |bs| == 0 then 0
    else (if Special(bs[0]) then 1 else 0) + Specials(bs[1..])
  }

  /** One payload octet after stuffing */
  function StuffOctet(b: byte): seq<byte>
  {
    if b == Flag then [Esc, Flag ^ StuffMask]
    else if b == Esc then [Esc, Esc ^ StuffMask]
    else [b]
  }

  /** No octet of s is the delimiter, and every escape is followed by 0x5E or 0x5D */
  ghost predicate Transparent(s: seq<byte>)
  {
    && (forall i | 0 <= i < |s| :: s[i] != Flag)
    && (forall i | 0 <= i < |s| && s[i] == Esc :: i + 1 < |s| && (s[i + 1] == 0x5E || s[i + 1] == 0x5D))
  }

  /** The stuffed payload: each octet replaced by StuffOctet */
  function Stuff(bs: seq<byte>): (s: seq<byte>)
    ensures |s| == |bs| + Specials(bs)
  {
    if |bs| == 0 then [] else StuffOctet(bs[0]) + Stuff(bs[1..])
  }

  /** Stuffing leaves a payload unchanged exactly when it has no FLAG or ESC octet */
  lemma {:induction false} StuffIdentityIffPlain(bs: seq<byte>)
    ensures Stuff(bs) == bs <==> forall i | 0 <= i < |bs| :: !Special(bs[i])
    decreases |bs|
  {
    if |bs| > 0 {
      StuffIdentityIffPlain(bs[1..]);
      if Special(bs[0]) {
        assert |Stuff(bs)| > |bs|;
      } else {
        assert Stuff(bs) == [bs[0]] + Stuff(bs[1..]);
        assert bs == [bs[0]] + bs[1..];
        if Stuff(bs) == bs {
          assert Stuff(bs[1..]) == bs[1..];
        }
        if forall i | 0 <= i < |bs| :: !Special(bs[i]) {
          assert forall i | 0 <= i < |bs[1..]| :: !Special(bs[1..][i]) by {
            forall i | 0 <= i < |bs[1..]| ensures !Special(bs[1..][i]) {
              assert bs[1..][i] == bs[i + 1];
            }
          }
        }
      }
    }
  }

  /** Stuffing distributes over concatenation */
  lemma {:induction false} StuffAppend(a: seq<byte>, b: seq<byte>)
    ensures Stuff(a + b) == Stuff(a) + Stuff(b)
  {
    if |a| == 0 {
      assert a + b == b;
    } else {
      assert (a + b)[1..] == a[1..] + b;
      StuffAppend(a[1..], b);
    }
  }

  /**
    Reference decoder (a specification helper; the receiver is not part of the code):
    every Esc x pair becomes x ^ 0x20, every other octet is kept, a trailing Esc fails.
   */
  function Unstuff(s: seq<byte>): Option<seq<byte>>
  {
    if |s| == 0 then Some([])
    else if s[0] == Esc then
      if |s| < 2 then None
      else match Unstuff(s[2..])
        case None => None
        case Some(rest) => Some([s[1] ^ StuffMask] + rest)
    else match Unstuff(s[1..])
      case None => None
      case Some(rest) => Some([s[0]] + rest)
  }

  /** Stuffing is undone by the reference decoder, for every payload */
  lemma {:induction false} StuffRoundTrip(bs: seq<byte>)
    ensures Unstuff(Stuff(bs)) == Some(bs)
  {
    if |bs| > 0 {
      StuffRoundTrip(bs[1..]);
      var s := Stuff(bs);
      assert s == StuffOctet(bs[0]) + Stuff(bs[1..]);
      if Special(bs[0]) {
        assert s[2..] == Stuff(bs[1..]);
      } else {
        assert s[1..] == Stuff(bs[1..]);
      }
      assert [bs[0]] + bs[1..] == bs;
    }
  }

  /** The stuffed payload is transparent: no delimiter, only the two escape pairs */
  lemma {:induction false} StuffIsTransparent(bs: seq<byte>)
    ensures Transparent(Stuff(bs))
  {
    if |bs| > 0 {
      StuffIsTransparent(bs[1..]);
      var head := StuffOctet(bs[0]);
      var tail := Stuff(bs[1..]);
      assert Stuff(bs) == head + tail;
      forall i | 0 <= i < |head + tail| && (head + tail)[i] == Esc
        ensures i + 1 < |head + tail|
        ensures (head + tail)[i + 1] == 0x5E || (head + tail)[i + 1] == 0x5D
      {
        if i >= |head| {
          assert (head + tail)[i] == tail[i - |head|];
          assert (head + tail)[i + 1] == tail[i + 1 - |head|];
        }
      }
    }
  }

  /** Conversely every transparent octet string is the stuffing of exactly one payload */
  lemma {:induction false} TransparentIsStuffed(s: seq<byte>)
    requires Transparent(s)
    ensures Unstuff(s).Some?
    ensures Stuff(Unstuff(s).value) == s
  {
    if |s| > 0 {
      if s[0] == Esc {
        var t := s[2..];
        assert Transparent(t) by {
          forall i | 0 <= i < |t| && t[i] == Esc
            ensures i + 1 < |t| && (t[i + 1] == 0x5E || t[i + 1] == 0x5D)
          {
            assert s[i + 2] == Esc;
          }
        }
        TransparentIsStuffed(t);
        var x := s[1] ^ StuffMask;
        assert StuffOctet(x) == [Esc, s[1]];
        assert [x] + Unstuff(t).value == Unstuff(s).value;
        assert Stuff([x] + Unstuff(t).value) == StuffOctet(x) + Stuff(Unstuff(t).value);
        assert s == [Esc, s[1]] + t;
      } else {
        var t := s[1..];
        assert Transparent(t) by {
          forall i | 0 <= i < |t| && t[i] == Esc
            ensures i + 1 < |t| && (t[i + 1] == 0x5E || t[i + 1] == 0x5D)
          {
            assert s[i + 1] == Esc;
          }
        }
        TransparentIsStuffed(t);
        assert StuffOctet(s[0]) == [s[0]];
        assert Stuff([s[0]] + Unstuff(t).value) == StuffOctet(s[0]) + Stuff(Unstuff(t).value);
        assert s == [s[0]] + t;
      }
    }
  }

  /**
    create_frame: header with N(frameNumb), the stuffed payload, the unstuffed BCC2,
    the closing flag. Its length is what create_frame returns.
   */
  function CreateFrame(frameNumb: nat, buf: seq<byte>): (f: seq<byte>)
    ensures |f| == 6 + |buf| + Specials(buf)
    ensures |f| <= 2 * |buf| + 6
    ensures f[..4] == [Flag, ASender, N(frameNumb), ASender ^ N(frameNumb)]
    ensures f[|f| - 1] == Flag
  {
    Header(frameNumb) + Stuff(buf) + [Xor(buf), Flag]
  }

  /** The region between header and BCC2 decodes to the payload, and BCC2 checks it */
  lemma CreateFrameInvertible(frameNumb: nat, buf: seq<byte>)
    ensures var f := CreateFrame(frameNumb, buf);
      && Transparent(f[4..|f| - 2])
      && Unstuff(f[4..|f| - 2]) == Some(buf)
      && f[|f| - 2] == Xor(buf)
  {
    var f := CreateFrame(frameNumb, buf);
    assert f[4..|f| - 2] == Stuff(buf);
    StuffRoundTrip(buf);
    StuffIsTransparent(buf);
  }

  /** Changing one payload octet changes BCC2 by exactly the difference */
  lemma {:induction false} XorUpdate(bs: seq<byte>, i: nat, x: byte)
    requires i < |bs|
    ensures Xor(bs[i := x]) == Xor(bs) ^ bs[i] ^ x
  {
    var last := |bs| - 1;
    var cs := bs[i := x];
    assert cs[..last] == if i == last then bs[..last] else bs[..last][i := x];
    if i < last {
      XorUpdate(bs[..last], i, x);
    }
  }

  /** BCC2 detects every corruption confined to a single payload octet */
  lemma Bcc2DetectsSingleOctetError(buf: seq<byte>, i: nat, x: byte)
    requires i < |buf| && x != buf[i]
    ensures Xor(buf[i := x]) != Xor(buf)
  {
    XorUpdate(buf, i, x);
  }

  /** BCC2 is not stuffed: a payload whose checksum is 0x7E puts a bare Flag before the closing one */
  lemma UnstuffedBcc2CanBeFlag()
    ensures CreateFrame(0, [Flag]) == [0x7E, 0x03, 0x00, 0x03, 0x7D, 0x5E, 0x7E, 0x7E]
  {
    assert Xor([Flag]) == Flag by {
      assert [Flag][..0] == [];
    }
  }

  /** Extending the payload by one octet extends the stuffing and the checksum */
  lemma PrefixStep(buf: seq<byte>, i: nat)
    requires i < |buf|
    ensures Stuff(buf[..i + 1]) == Stuff(buf[..i]) + StuffOctet(buf[i])
    ensures Xor(buf[..i + 1]) == Xor(buf[..i]) ^ buf[i]
  {
    assert buf[..i + 1] == buf[..i] + [buf[i]];
    StuffAppend(buf[..i], [buf[i]]);
    assert Stuff([buf[i]]) == StuffOctet(buf[i]) + Stuff([]);
    assert buf[..i + 1][..i] == buf[..i];
  }

  /** One pass of create_frame's loop extends the frame built so far by one stuffed octet */
  lemma BuildStep(frameNumb: nat, buf: seq<byte>, i: nat, frame: seq<byte>, piece: seq<byte>)
    requires i < |buf|
    requires frame == Header(frameNumb) + Stuff(buf[..i])
    requires piece == StuffOctet(buf[i])
    ensures frame + piece == Header(frameNumb) + Stuff(buf[..i + 1])
    ensures Xor(buf[..i + 1]) == Xor(buf[..i]) ^ buf[i]
  {
    PrefixStep(buf, i);
    assert frame + piece == Header(frameNumb) + (Stuff(buf[..i]) + piece);
  }

  /** create_frame as the loop the code runs, computing BCC2 and the stuffed region together */
  method BuildFrame(frameNumb: nat, buf: seq<byte>) returns (frame: seq<byte>, size: int)
    ensures frame == CreateFrame(frameNumb, buf)
    ensures size == |frame|
  {
    frame := [Flag, ASender, N(frameNumb), ASender ^ N(frameNumb)];
    var bcc2: byte := 0;
    var i := 0;
    while i < |buf|
      invariant 0 <= i <= |buf|
      invariant frame == Header(frameNumb) + Stuff(buf[..i])
      invariant bcc2 == Xor(buf[..i])
    {
      var piece: seq<byte>;
      if buf[i] == Flag {
        piece := [Esc, Flag ^ StuffMask];
      } else if buf[i] == Esc {
        piece := [Esc, Esc ^ StuffMask];
      } else {
        piece := [buf[i]];
      }
      BuildStep(frameNumb, buf, i, frame, piece);
      frame := frame + piece;
      bcc2 := bcc2 ^ buf[i];
      i := i + 1;
    }
    assert buf[..i] == buf;
    frame := frame + [bcc2, Flag];
    size := |frame|;
  }
}

=== FILE: prototype.dfy ===
/**
  The earlier stand-alone programs write_noncanonical.c (transmitter) and
  read_noncanonical.c (receiver). Their frame builders and recognisers are
  the ones of Frames and Recognisers; what differs is how reads feed the
  recognisers and what is reset between calls:

  - the transmitter's sendSetFrame zeroes the one-octet buffer before each
    read and ignores the read's result, so an empty read feeds 0x00 and there
    is no read-error exit; the recogniser is not reset on entry;
  - the transmitter's llwrite reads into a freshly allocated, uninitialised
    buffer and does not reset the recogniser either;
  - the receiver's main loop zeroes the buffer before each read and stops at
    the first END, then sends the UA frame it builds byte by byte.
 */
module Prototype {
  import opened Wire
  import opened Frames
  import opened Recognisers
  import opened Retry

  /** isUA: the first five octets of the buffer, compared field by field */
  function IsUa(buf: seq<byte>): (r: bool)
    requires |buf| >= 5
    ensures r <==> buf[..5] == UaFrame()
  {
    buf[0] == Flag && buf[1] == AReceiver && buf[2] == CUa && buf[3] == AReceiver ^ CUa && buf[4] == Flag
  }

  /** isSet: likewise for the SET frame */
  function IsSet(buf: seq<byte>): (r: bool)
    requires |buf| >= 5
    ensures r <==> buf[..5] == SetFrame()
  {
    buf[0] == Flag && buf[1] == ASender && buf[2] == CSet && buf[3] == ASender ^ CSet && buf[4] == Flag
  }

  /** The five-octet test and the UA recogniser agree on every buffer */
  lemma IsUaIffRecognised(buf: seq<byte>)
    requires |buf| >= 5
    ensures IsUa(buf) <==> RunUa(Start, buf[..5]) == End
  {
    if RunUa(Start, buf[..5]) == End {
      RunControlEndsOnFrame(buf[..5], AReceiver, CUa);
    }
    FrameRecognisedOnlyFromStart(Start, AReceiver, CUa);
  }

  /** The five-octet test and the SET recogniser agree on every buffer */
  lemma IsSetIffRecognised(buf: seq<byte>)
    requires |buf| >= 5
    ensures IsSet(buf) <==> RunSet(Start, buf[..5]) == End
  {
    if RunSet(Start, buf[..5]) == End {
      RunControlEndsOnFrame(buf[..5], ASender, CSet);
    }
    FrameRecognisedOnlyFromStart(Start, ASender, CSet);
  }

  // ---------------------------------------------------------------------
  // write_noncanonical.c: sendSetFrame
  // ---------------------------------------------------------------------

  /** The buffer after `*buf = 0; read(fd, buf, 1)` */
  function Zeroed(r: ReadResult): byte
  {
    if r.Got? then r.b else 0x00
  }

  /** Every read delivers an octet: the one received, or the 0x00 left in the buffer */
  function ZeroFill(evs: seq<Event>): (z: seq<Event>)
    ensures |z| == |evs|
    ensures forall i | 0 <= i < |z| :: z[i].AlarmFires? || z[i].result.Got?
  {
    seq(|evs|, i requires 0 <= i < |evs| =>
      if evs[i].AlarmFires? then AlarmFires else Read(Got(Zeroed(evs[i].result))))
  }

  /**
    sendSetFrame of the prototype: alarmCount is reset but the recogniser is not, and
    since the read's result is ignored the only way to return -1 is the retry limit.
   */
  function SendSetFrame(cfg: Config, l: Link, evs: seq<Event>): (r: Outcome)
    ensures r.writes <= Cap(cfg)
    ensures r.status.Returned? ==> r.status.code == 0 || r.status.code == -1
    ensures r.status == Returned(-1) ==> r.link.alarm.count >= cfg.retries
    ensures l.state != End ==> (r.status == Returned(0) <==> r.link.state == End)
    ensures r.consumed <= |evs|
  {
    SetLoop(cfg, l.(alarm := l.alarm.(count := 0)), 0, ZeroFill(evs))
  }

  /**
    The state the prototype's sendSetFrame leaves behind is the UA recogniser, run from
    wherever it was, over the octets read with every empty read taken as 0x00.
   */
  lemma SendSetFrameFollowsRecogniser(cfg: Config, l: Link, evs: seq<Event>)
    ensures var r := SendSetFrame(cfg, l, evs);
      r.link.state == RunUa(l.state, Delivered(ZeroFill(evs)[..r.consumed]))
  {
    SetLoopFollowsRecogniser(cfg, l.(alarm := l.alarm.(count := 0)), 0, ZeroFill(evs));
  }

  /**
    The prototype's sendSetFrame returns at the first read whose octet (0x00 for an empty
    read) completes a UA frame, reading no further.
   */
  lemma SendSetFrameStopsAtFirstUa(cfg: Config, l: Link, evs: seq<Event>)
    ensures var r := SendSetFrame(cfg, l, evs);
      forall k | 0 < k < r.consumed && evs[k - 1].Read? :: RunUa(l.state, Delivered(ZeroFill(evs)[..k])) != End
  {
    var z := ZeroFill(evs);
    SetLoopStopsAtFirstEnd(cfg, l.(alarm := l.alarm.(count := 0)), 0, z);
    forall k | 0 < k < SendSetFrame(cfg, l, evs).consumed && evs[k - 1].Read?
      ensures RunUa(l.state, Delivered(z[..k])) != End
    {
      assert z[k - 1].Read? && z[k - 1].result.Got?;
    }
  }

  /** 0x00 is neither FLAG nor any octet of UA, so it sends every state of the UA recogniser to START */
  lemma ZeroOctetResetsUa(st: State)
    ensures StepControl(st, 0x00, AReceiver, CUa) == Start
  {
  }

  lemma {:induction false} DeliveredAppend(a: seq<Event>, b: seq<Event>)
    ensures Delivered(a + b) == Delivered(a) + Delivered(b)
    decreases |a|
  {
    if |a| == 0 {
      assert a + b == b;
    } else {
      assert (a + b)[1..] == a[1..] + b;
      DeliveredAppend(a[1..], b);
    }
  }

  /**
    An empty read while the transmitter waits for UA throws away whatever part of the
    UA it had recognised: after it the recogniser is back at START.
   */
  lemma EmptyReadRestartsUa(cfg: Config, l: Link, before: seq<Event>)
    requires SendSetFrame(cfg, l, before + [Read(Nothing)]).status.Waiting?
    ensures SendSetFrame(cfg, l, before + [Read(Nothing)]).link.state == Start
  {
    var evs := before + [Read(Nothing)];
    var r := SendSetFrame(cfg, l, evs);
    var z := ZeroFill(evs);
    SendSetFrameFollowsRecogniser(cfg, l, evs);
    assert z[..r.consumed] == ZeroFill(before) + [Read(Got(0x00))];
    DeliveredAppend(ZeroFill(before), [Read(Got(0x00))]);
    assert Delivered([Read(Got(0x00))]) == [0x00] by {
      assert [Read(Got(0x00))][1..] == [];
    }
    var d := Delivered(ZeroFill(before));
    RunControlConcat(l.state, d, [0x00], AReceiver, CUa);
    assert RunUa(RunUa(l.state, d), [0x00]) == StepControl(RunUa(l.state, d), 0x00, AReceiver, CUa) by {
      assert [0x00 as byte][1..] == [];
    }
    ZeroOctetResetsUa(RunUa(l.state, d));
  }

  // ---------------------------------------------------------------------
  // write_noncanonical.c: llwrite
  // ---------------------------------------------------------------------

  /**
    One turn of the prototype llwrite's wait: the alarm expires, or the read returns and the
    freshly allocated buffer holds some octet (the one received, or whatever the allocation held).
   */
  datatype Poll = Tick | Octet(b: byte)

  function AsEvents(polls: seq<Poll>): (evs: seq<Event>)
    ensures |evs| == |polls|
    ensures forall i | 0 <= i < |polls| :: evs[i] == (if polls[i].Tick? then AlarmFires else Read(Got(polls[i].b)))
  {
    seq(|polls|, i requires 0 <= i < |polls| => if polls[i].Tick? then AlarmFires else Read(Got(polls[i].b)))
  }

  /** The octets the recogniser sees */
  function Octets(polls: seq<Poll>): seq<byte>
    decreases |polls|
  {
    if |polls| == 0 then []
    else (if polls[0].Octet? then [polls[0].b] else []) + Octets(polls[1..])
  }

  lemma {:induction false} FeedOctets(cell: byte, polls: seq<Poll>)
    ensures Feed(cell, AsEvents(polls)) == Octets(polls)
    decreases |polls|
  {
    if |polls| > 0 {
      var evs := AsEvents(polls);
      assert evs[1..] == AsEvents(polls[1..]);
      if polls[0].Tick? {
        FeedOctets(cell, polls[1..]);
      } else {
        FeedOctets(polls[0].b, polls[1..]);
      }
    }
  }

  /**
    llwrite of the prototype: the payload bound, then the same stop-and-wait loop as the
    link layer's, entered in whatever state the recogniser was left.
   */
  function Llwrite(cfg: Config, l: Link, buf: seq<byte>, polls: seq<Poll>): (r: Transmission)
    ensures |buf| > MaxPayloadSize ==> r == Transmission(Returned(-1), l, false, 0, 0)
    ensures r.writes <= Cap(cfg)
    ensures r.status.Returned? && r.status.code < 0 ==> |buf| > MaxPayloadSize
    ensures |buf| <= MaxPayloadSize && r.status.Returned? ==>
              && r.status.code == (if r.writes > 0 then 6 + |buf| + Specials(buf) else 0)
              && r.link.frameNumb == l.frameNumb + 1 && !r.isRej && r.link.state == End
    ensures !r.status.Returned? ==> r.link.frameNumb == l.frameNumb
    ensures |buf| <= MaxPayloadSize && l.state != End && !r.status.Returned? ==> !(r.link.state == End && !r.isRej)
  {
    if |buf| > MaxPayloadSize then
      Transmission(Returned(-1), l, false, 0, 0)
    else
      WriteLoop(cfg, CreateFrame(l.frameNumb, buf), l.(alarm := l.alarm.(count := 0)), false, 0x00, 0,
                AsEvents(polls))
  }

  /** The prototype llwrite returns at the first poll that completes the acknowledgement, not later */
  lemma LlwriteStopsAtFirstAck(cfg: Config, l: Link, buf: seq<byte>, polls: seq<Poll>)
    requires |buf| <= MaxPayloadSize
    ensures var r := Llwrite(cfg, l, buf, polls);
      forall k | 0 < k < r.consumed && polls[k - 1].Octet? ::
        !Acked(RunAck(AckMachine(l.state, l.control, false), Octets(polls[..k]), l.frameNumb))
  {
    var l0 := l.(alarm := l.alarm.(count := 0));
    var evs := AsEvents(polls);
    var r := Llwrite(cfg, l, buf, polls);
    WriteLoopStopsAtFirstAck(cfg, CreateFrame(l.frameNumb, buf), l0, false, 0x00, 0, evs);
    forall k | 0 < k < r.consumed && polls[k - 1].Octet?
      ensures !Acked(RunAck(AckMachine(l.state, l.control, false), Octets(polls[..k]), l.frameNumb))
    {
      assert evs[k - 1].Read?;
      assert evs[..k] == AsEvents(polls[..k]);
      FeedOctets(0x00, polls[..k]);
    }
  }


  /** A polled-octet trace delivering the octets bs */
  function OctetPolls(bs: seq<byte>): (polls: seq<Poll>)
    ensures |polls| == |bs|
    ensures Octets(polls) == bs
    ensures forall i | 0 <= i < |bs| :: polls[i] == Octet(bs[i])
    decreases |bs|
  {
    if |bs| == 0 then [] else [Octet(bs[0])] + OctetPolls(bs[1..])
  }

  lemma {:induction false} RunAckSnoc(m: AckMachine, bs: seq<byte>, b: byte, n: nat)
    ensures RunAck(m, bs + [b], n) == StepAck(RunAck(m, bs, n), b, n)
    decreases |bs|
  {
    if |bs| == 0 {
      assert bs + [b] == [b];
      assert [b][1..] == [];
    } else {
      assert (bs + [b])[1..] == bs[1..] + [b];
      RunAckSnoc(StepAck(m, bs[0], n), bs[1..], b, n);
    }
  }

  lemma {:induction false} OctetsPrefix(polls: seq<Poll>, k: nat)
    requires k <= |polls|
    requires forall i | 0 <= i < |polls| :: polls[i].Octet?
    ensures |Octets(polls)| == |polls|
    ensures Octets(polls[..k]) == Octets(polls)[..k]
    decreases |polls|
  {
    if |polls| > 0 {
      OctetsPrefix(polls[1..], if k > 0 then k - 1 else 0);
      if k > 0 {
        assert polls[..k][1..] == polls[1..][..k - 1];
      }
    }
  }

  /** Entered in END, the RR/REJ machine spends the opening flag of an RR leaving END */
  lemma EndSpendsOpeningFlag(control: byte, n: nat)
    ensures forall k | 1 <= k <= 5 :: RunAck(AckMachine(End, control, false), AckFrame(n)[..k], n).state != End
  {
    var f := AckFrame(n);
    var m0 := AckMachine(End, control, false);
    var s1 := StepAck(m0, f[0], n);
    var s2 := StepAck(s1, f[1], n);
    var s3 := StepAck(s2, f[2], n);
    var s4 := StepAck(s3, f[3], n);
    var s5 := StepAck(s4, f[4], n);
    assert s1.state == Start && s2.state == Start && s3.state == Start && s4.state == Start;
    assert s5.state == FlagRcv;
    assert RunAck(m0, f[..0], n) == m0;
    forall k | 0 <= k < 5
      ensures RunAck(m0, f[..k + 1], n) == StepAck(RunAck(m0, f[..k], n), f[k], n)
    {
      assert f[..k + 1] == f[..k] + [f[k]];
      RunAckSnoc(m0, f[..k], f[k], n);
    }
  }

  /**
    The prototype llwrite does not reset the recogniser. Entered in END, where a successful
    sendSetFrame leaves it, the opening flag of the first RR is spent leaving END, and that
    RR is not recognised.
   */
  lemma FirstAckLostAfterOpen(cfg: Config, l: Link, buf: seq<byte>)
    requires l.state == End && |buf| <= MaxPayloadSize
    ensures !Llwrite(cfg, l, buf, OctetPolls(AckFrame(l.frameNumb))).status.Returned?
  {
    var n := l.frameNumb;
    var f := AckFrame(n);
    var polls := OctetPolls(f);
    var l0 := l.(alarm := l.alarm.(count := 0));
    var r := Llwrite(cfg, l, buf, polls);
    if r.status.Returned? {
      var c := r.consumed;
      assert 1 <= c <= 5;
      WriteLoopFollowsMachine(cfg, CreateFrame(n, buf), l0, false, 0x00, 0, AsEvents(polls));
      FeedOctets(0x00, polls[..c]);
      assert AsEvents(polls)[..c] == AsEvents(polls[..c]);
      OctetsPrefix(polls, c);
      EndSpendsOpeningFlag(l.control, n);
      assert false;
    }
  }

  /**
    Entered in START instead, the prototype llwrite returns on the acknowledgement frame
    after exactly five polls, whatever would have been polled after it, with the size of
    the frame it wrote.
   */
  lemma LlwriteAcceptsAck(cfg: Config, l: Link, buf: seq<byte>, rest: seq<Poll>)
    requires cfg.retries > 0 && |buf| <= MaxPayloadSize && !l.alarm.enabled && l.state == Start
    ensures var r := Llwrite(cfg, l, buf, OctetPolls(AckFrame(l.frameNumb)) + rest);
      && r.status == Returned(|CreateFrame(l.frameNumb, buf)|)
      && r.consumed == 5 && r.writes == 1
  {
    var n := l.frameNumb;
    var f := AckFrame(n);
    var l0 := l.(alarm := l.alarm.(count := 0));
    var m0 := Machine(l0, false);
    AcceptedFramesComplete(m0, n);
    forall k | 0 < k < 5
      ensures !Acked(RunAck(m0, f[..k], n))
    {
      RunAckSound(m0, f[..k], n);
    }
    assert AsEvents(OctetPolls(f) + rest) == Reads(f) + AsEvents(rest);
    WriteLoopReturnsOnAck(cfg, CreateFrame(n, buf), l0, false, 0x00, 0, f, AsEvents(rest));
  }

  // ---------------------------------------------------------------------
  // read_noncanonical.c
  // ---------------------------------------------------------------------

  /** The reply the receiver builds in main, octet by octet */
  function UaReply(): (f: seq<byte>)
    ensures f == UaFrame()
    ensures f == [0x7E, 0x01, 0x07, 0x06, 0x7E]
  {
    [Flag, AReceiver, CUa, AReceiver ^ CUa, Flag]
  }

  /** The octets the receiver's `state_machine` is fed: each read's octet, or 0x00 */
  function ZeroedAll(input: seq<ReadResult>): (bs: seq<byte>)
    ensures |bs| == |input|
    ensures forall i | 0 <= i < |input| :: bs[i] == Zeroed(input[i])
  {
    seq(|input|, i requires 0 <= i < |input| => Zeroed(input[i]))
  }

  /**
    The receiver's main loop from a given state: zero the octet, read, step `state_machine`,
    stop at END; then the UA reply is written.
   */
  function AwaitSet(st: State, input: seq<ReadResult>): (r: Reply)
    ensures r.consumed <= |input|
    ensures r.status == Returned(0) || r.status == Waiting
    ensures r.status.Waiting? ==> r.consumed == |input|
    ensures r.status == Returned(0) ==> r.state == End && r.sent == UaFrame()
    ensures r.status.Waiting? ==> r.sent == []
    ensures st != End ==> (r.status == Returned(0) <==> r.state == End)
    decreases |input|
  {
    if |input| == 0 then
      Reply(Waiting, st, 0, [])
    else
      var st' := StepControl(st, Zeroed(input[0]), ASender, CSet);
      if st' == End then
        Reply(Returned(0), st', 1, UaReply())
      else
        var r := AwaitSet(st', input[1..]);
        r.(consumed := r.consumed + 1)
  }

  /** The state the receiver's loop ends in is state_machine run over the octets read, each empty read as 0x00 */
  lemma {:induction false} AwaitSetFollowsRecogniser(st: State, input: seq<ReadResult>)
    ensures var r := AwaitSet(st, input);
      r.state == RunSet(st, ZeroedAll(input[..r.consumed]))
    decreases |input|
  {
    if |input| > 0 {
      var st' := StepControl(st, Zeroed(input[0]), ASender, CSet);
      assert ZeroedAll(input[..1]) == [Zeroed(input[0])];
      assert RunSet(st, [Zeroed(input[0])]) == RunSet(st', []) by { assert [Zeroed(input[0])][1..] == []; }
      if st' != End {
        var r := AwaitSet(st', input[1..]);
        AwaitSetFollowsRecogniser(st', input[1..]);
        var tail := ZeroedAll(input[1..][..r.consumed]);
        assert ZeroedAll(input[..r.consumed + 1]) == [Zeroed(input[0])] + tail;
        assert RunSet(st, [Zeroed(input[0])] + tail) == RunSet(st', tail) by {
          assert ([Zeroed(input[0])] + tail)[1..] == tail;
        }
      }
    } else {
      assert ZeroedAll(input[..0]) == [];
    }
  }

  /** The receiver program: the recogniser starts at START */
  function ReceiveSet(input: seq<ReadResult>): (r: Reply)
    ensures r.status == Returned(0) <==> r.state == End
    ensures r.status == Returned(0) ==> r.sent == UaFrame()
  {
    AwaitSet(Start, input)
  }

  /** The receiver answers only after the last five octets fed were the SET frame */
  lemma ReceiveSetSound(input: seq<ReadResult>)
    requires ReceiveSet(input).status == Returned(0)
    ensures EndsWith(ZeroedAll(input[..ReceiveSet(input).consumed]), SetFrame())
  {
    AwaitSetFollowsRecogniser(Start, input);
    RunControlEndsOnFrame(ZeroedAll(input[..ReceiveSet(input).consumed]), ASender, CSet);
  }

  /** The loop stops at the first octet that brings the recogniser to END, not later */
  lemma {:induction false} AwaitSetStopsAtFirstEnd(st: State, input: seq<ReadResult>)
    ensures forall k | 0 < k < AwaitSet(st, input).consumed :: RunSet(st, ZeroedAll(input[..k])) != End
    decreases |input|
  {
    if |input| > 0 {
      var st' := StepControl(st, Zeroed(input[0]), ASender, CSet);
      if st' != End {
        var r := AwaitSet(st', input[1..]);
        AwaitSetStopsAtFirstEnd(st', input[1..]);
        forall k | 0 < k < r.consumed + 1
          ensures RunSet(st, ZeroedAll(input[..k])) != End
        {
          var tail := ZeroedAll(input[1..][..k - 1]);
          assert ZeroedAll(input[..k]) == [Zeroed(input[0])] + tail;
          assert ([Zeroed(input[0])] + tail)[1..] == tail;
          assert RunSet(st, [Zeroed(input[0])] + tail) == RunSet(st', tail);
        }
      }
    }
  }

  /** A SET frame whose BCC1 read came back empty is still accepted: the zeroed octet is BCC1 */
  lemma EmptyReadAcceptedAsBcc1()
    ensures ReceiveSet([Got(Flag), Got(ASender), Got(CSet), Nothing, Got(Flag)]).status == Returned(0)
  {
    var input := [Got(Flag), Got(ASender), Got(CSet), Nothing, Got(Flag)];
    assert ZeroedAll(input) == SetFrame();
    RunControlFive(Start, SetFrame(), ASender, CSet);
    AwaitSetFollowsRecogniser(Start, input);
    assert input[..|input|] == input;
  }
}

=== FILE: recognisers.dfy ===
/**
  The byte-at-a-time recognisers of the link layer: state_machine_UA and
  state_machine_set (code_project/src/link_layer.c, and the copies
  state_machine_UA in write_noncanonical.c and state_machine in
  read_noncanonical.c), which differ only in the address and command they
  expect, and state_machine_RR_REJ, which also records the control octet
  and whether a rejection was seen.

  A FLAG in FLAG_RCV, A_RCV or C_RCV stores the value FLAG into the state
  variable; that value names no state, so the next octet, whatever it is,
  falls to the `default` arm and returns to START. `Bogus` is that value.
 */
module Recognisers {
  import opened Wire
  import opened Frames

  /** s ends with t */
  predicate EndsWith(s: seq<byte>, t: seq<byte>)
  {
    |t| <= |s| && s[|s| - |t|..] == t
  }

  lemma EndsWithTransitive(x: seq<byte>, y: seq<byte>, z: seq<byte>)
    requires EndsWith(x, y) && EndsWith(y, z)
    ensures EndsWith(x, z)
  {
    assert x[|x| - |z|..] == x[|x| - |y|..][|y| - |z|..];
  }

  lemma EndsWithExtend(y: seq<byte>, z: seq<byte>, r: seq<byte>)
    requires EndsWith(y, z)
    ensures EndsWith(y + r, z + r)
  {
    assert (y + r)[|y + r| - |z + r|..] == y[|y| - |z|..] + r;
  }

  /** One step followed by a run: the claims compose */
  lemma EndsWithChain(p: seq<byte>, b: byte, rest: seq<byte>, p': seq<byte>, q: seq<byte>)
    requires EndsWith(p + [b], p') && EndsWith(p' + rest, q)
    ensures EndsWith(p + ([b] + rest), q)
  {
    EndsWithExtend(p + [b], p', rest);
    assert p + [b] + rest == p + ([b] + rest);
    EndsWithTransitive(p + ([b] + rest), p' + rest, q);
  }

  // ---------------------------------------------------------------------
  // Fixed-frame recogniser (UA and SET)
  // ---------------------------------------------------------------------

  /** One step of the recogniser for the frame FLAG a c (a ^ c) FLAG */
  function StepControl(st: State, b: byte, a: byte, c: byte): (r: State)
    ensures r == End <==> st == Bcc1Ok && b == Flag
    ensures st == Start ==> (r == FlagRcv <==> b == Flag)
    ensures (st == FlagRcv && b != a) || (st == ARcv && b != c) || (st == CRcv && b != a ^ c) ==>
              r == (if b == Flag then Bogus else Start)
    ensures st in {Data, Bcc2Ok, End, Bogus} ==> r == Start
    ensures r != Data && r != Bcc2Ok
  {
    match st
    case Start => if b == Flag then FlagRcv else Start
    case FlagRcv => if b == a then ARcv else if b == Flag then Bogus else Start
    case ARcv => if b == c then CRcv else if b == Flag then Bogus else Start
    case CRcv => if b == a ^ c then Bcc1Ok else if b == Flag then Bogus else Start
    case Bcc1Ok => if b == Flag then End else Start
    case _ => Start
  }

  function RunControl(st: State, bs: seq<byte>, a: byte, c: byte): State
    decreases |bs|
  {
    if |bs| == 0 then st else RunControl(StepControl(st, bs[0], a, c), bs[1..], a, c)
  }

  /** state_machine_UA: expects A_RECEIVER, C_UA */
  function RunUa(st: State, bs: seq<byte>): State
  {
    RunControl(st, bs, AReceiver, CUa)
  }

  /** state_machine_set / state_machine: expects A_SENDER, C_SET */
  function RunSet(st: State, bs: seq<byte>): State
  {
    RunControl(st, bs, ASender, CSet)
  }

  /** Octets of the frame that a state says have just been consumed */
  function Progress(st: State): nat
  {
    match st
    case FlagRcv => 1
    case ARcv => 2
    case CRcv => 3
    case Bcc1Ok => 4
    case End => 5
    case _ => 0
  }

  function Partial(st: State, a: byte, c: byte): seq<byte>
  {
    ControlFrame(a, c)[..Progress(st)]
  }

  lemma StepControlSound(st: State, b: byte, a: byte, c: byte)
    ensures EndsWith(Partial(st, a, c) + [b], Partial(StepControl(st, b, a, c), a, c))
  {
    var r := StepControl(st, b, a, c);
    var s := Partial(st, a, c) + [b];
    if Progress(r) == 0 {
      assert s[|s| - 0..] == [];
    } else {
      var f := ControlFrame(a, c);
      var k := Progress(st);
      assert Progress(r) == k + 1 && k < 5 && b == f[k] by {
        match st
        case Start =>
        case FlagRcv =>
        case ARcv =>
        case CRcv =>
        case Bcc1Ok =>
        case _ =>
      }
      assert s == f[..k + 1];
    }
  }

  /**
    Soundness of the recogniser from any state: the prefix of the frame that the
    final state claims is a suffix of what the start state claimed plus the octets fed.
   */
  lemma {:induction false} RunControlSound(st: State, bs: seq<byte>, a: byte, c: byte)
    ensures EndsWith(Partial(st, a, c) + bs, Partial(RunControl(st, bs, a, c), a, c))
    decreases |bs|
  {
    if |bs| == 0 {
      assert Partial(st, a, c) + bs == Partial(st, a, c);
    } else {
      var b, rest := bs[0], bs[1..];
      var st' := StepControl(st, b, a, c);
      var p, p', q := Partial(st, a, c), Partial(st', a, c), Partial(RunControl(st', rest, a, c), a, c);
      assert RunControl(st, bs, a, c) == RunControl(st', rest, a, c);
      RunControlSound(st', rest, a, c);
      StepControlSound(st, b, a, c);
      assert bs == [b] + rest;
      EndsWithChain(p, b, rest, p', q);
    }
  }

  /** From START the recogniser reaches END only when the last five octets fed were the frame */
  lemma RunControlEndsOnFrame(bs: seq<byte>, a: byte, c: byte)
    requires RunControl(Start, bs, a, c) == End
    ensures EndsWith(bs, ControlFrame(a, c))
  {
    RunControlSound(Start, bs, a, c);
    assert Partial(Start, a, c) + bs == bs;
  }

  /** Five steps of the recogniser, spelled out */
  lemma RunControlFive(st: State, f: seq<byte>, a: byte, c: byte)
    requires |f| == 5
    ensures RunControl(st, f, a, c) ==
      StepControl(StepControl(StepControl(StepControl(StepControl(st, f[0], a, c), f[1], a, c), f[2], a, c), f[3], a, c), f[4], a, c)
  {
    var s1 := StepControl(st, f[0], a, c);
    var s2 := StepControl(s1, f[1], a, c);
    var s3 := StepControl(s2, f[2], a, c);
    var s4 := StepControl(s3, f[3], a, c);
    assert RunControl(st, f, a, c) == RunControl(s1, f[1..], a, c);
    assert RunControl(s1, f[1..], a, c) == RunControl(s2, f[2..], a, c) by { assert f[1..][1..] == f[2..]; }
    assert RunControl(s2, f[2..], a, c) == RunControl(s3, f[3..], a, c) by { assert f[2..][1..] == f[3..]; }
    assert RunControl(s3, f[3..], a, c) == RunControl(s4, f[4..], a, c) by { assert f[3..][1..] == f[4..]; }
    assert RunControl(s4, f[4..], a, c) == StepControl(s4, f[4], a, c) by { assert f[4..][1..] == []; }
  }

  lemma {:induction false} RunControlConcat(st: State, x: seq<byte>, y: seq<byte>, a: byte, c: byte)
    ensures RunControl(st, x + y, a, c) == RunControl(RunControl(st, x, a, c), y, a, c)
    decreases |x|
  {
    if |x| > 0 {
      assert (x + y)[1..] == x[1..] + y;
      RunControlConcat(StepControl(st, x[0], a, c), x[1..], y, a, c);
    } else {
      assert x + y == y;
    }
  }

  /**
    Feeding exactly the frame reaches END precisely from START: from every other state
    the opening FLAG is misread (a restart FLAG goes to the out-of-range state).
   */
  lemma FrameRecognisedOnlyFromStart(st: State, a: byte, c: byte)
    requires a != Flag && c != Flag && a ^ c != Flag
    ensures RunControl(st, ControlFrame(a, c), a, c) == End <==> st == Start
  {
    RunControlFive(st, ControlFrame(a, c), a, c);
  }

  /** k repeated FLAG octets */
  function Flags(k: nat): (fs: seq<byte>)
    ensures |fs| == k && forall i | 0 <= i < k :: fs[i] == Flag
  {
    if k == 0 then [] else [Flag] + Flags(k - 1)
  }

  /** From START, a run of flags cycles START -> FLAG_RCV -> out-of-range -> START */
  lemma {:induction false} FlagRunCycles(k: nat, a: byte, c: byte)
    requires a != Flag
    ensures RunControl(Start, Flags(k), a, c) ==
            (if k % 3 == 0 then Start else if k % 3 == 1 then FlagRcv else Bogus)
  {
    if k > 0 {
      FlagRunCycles(k - 1, a, c);
      assert Flags(k) == Flags(k - 1) + [Flag] by {
        assert Flags(k)[..k - 1] == Flags(k - 1);
      }
      RunControlConcat(Start, Flags(k - 1), [Flag], a, c);
      var prev := RunControl(Start, Flags(k - 1), a, c);
      assert RunControl(prev, [Flag], a, c) == StepControl(prev, Flag, a, c) by {
        assert [Flag][1..] == [];
      }
      if (k - 1) % 3 == 0 {
        assert k % 3 == 1;
      } else if (k - 1) % 3 == 1 {
        assert k % 3 == 2;
      } else {
        assert k % 3 == 0;
      }
    }
  }

  /**
    Spurious flags before a well-formed frame prevent its recognition unless their
    number is a multiple of three: the code does not resynchronise on repeated flags.
   */
  lemma LeadingFlagsRecognisedIffMultipleOfThree(k: nat, a: byte, c: byte)
    requires a != Flag && c != Flag && a ^ c != Flag
    ensures RunControl(Start, Flags(k) + ControlFrame(a, c), a, c) == End <==> k % 3 == 0
  {
    RunControlConcat(Start, Flags(k), ControlFrame(a, c), a, c);
    FlagRunCycles(k, a, c);
    FrameRecognisedOnlyFromStart(RunControl(Start, Flags(k), a, c), a, c);
  }

  /** A single octet that occurs nowhere in the frame resets every state to START */
  lemma ForeignOctetResynchronises(st: State, x: byte, a: byte, c: byte)
    requires x != Flag && x != a && x != c && x != a ^ c
    ensures RunControl(st, [x] + ControlFrame(a, c), a, c) == End
  {
    RunControlConcat(st, [x], ControlFrame(a, c), a, c);
    assert RunControl(st, [x], a, c) == Start by {
      assert [x][1..] == [];
    }
    RunControlFive(Start, ControlFrame(a, c), a, c);
  }

  // ---------------------------------------------------------------------
  // RR/REJ recogniser
  // ---------------------------------------------------------------------

  /** state_command, the global `control`, and the caller's isRej flag */
  datatype AckMachine = AckMachine(state: State, control: byte, isRej: bool)

  /** C_RR0 + (n % 2) + 1: the octet taken as the positive acknowledgement of frame n */
  function AckByte(n: nat): byte
  {
    if n % 2 == 0 then 0xAB else 0xAC
  }

  /** C_RR0 + (n % 2): the octet taken as a rejection of frame n */
  function NackByte(n: nat): byte
  {
    if n % 2 == 0 then 0xAA else 0xAB
  }

  /** C_REJ + (n % 2): the control value recorded when a rejection octet is read */
  function RejControl(n: nat): byte
  {
    if n % 2 == 0 then 0x54 else 0x55
  }

  /**
    The three control octets are the code's int arithmetic on C_RR0 and C_REJ; the
    acknowledgement of an even frame is the rejection octet of an odd one.
   */
  lemma ControlOctetsAsWritten(n: nat)
    ensures AckByte(n) as int == CRr0 + n % 2 + 1
    ensures NackByte(n) as int == CRr0 + n % 2
    ensures RejControl(n) as int == CRej + n % 2
    ensures AckByte(n) != NackByte(n) && AckByte(n) != RejControl(n)
    ensures AckByte(2 * n) == NackByte(2 * n + 1)
  {
  }

  /** One step of state_machine_RR_REJ while frame n is outstanding */
  function StepAck(m: AckMachine, b: byte, n: nat): (r: AckMachine)
    ensures m.isRej ==> r.isRej
    ensures r.isRej != m.isRej ==> m.state == ARcv && b == NackByte(n)
    ensures m.state == ARcv && b == AckByte(n) ==> r == m.(state := CRcv, control := AckByte(n))
    ensures m.state == ARcv && b == NackByte(n) ==>
              r == m.(state := CRcv, control := RejControl(n), isRej := true)
    ensures r.control != m.control ==> m.state == ARcv && r.state == CRcv
    ensures r.state == Bcc1Ok <==> m.state == CRcv && b == AReceiver ^ m.control
    ensures r.state == End <==> m.state == Bcc1Ok && b == Flag
  {
    match m.state
    case Start => m.(state := if b == Flag then FlagRcv else Start)
    case FlagRcv => m.(state := if b == AReceiver then ARcv else if b == Flag then Bogus else Start)
    case ARcv =>
      if b == AckByte(n) then m.(state := CRcv, control := AckByte(n))
      else if b == NackByte(n) then m.(state := CRcv, control := RejControl(n), isRej := true)
      else m.(state := if b == Flag then Bogus else Start)
    case CRcv => m.(state := if b == AReceiver ^ m.control then Bcc1Ok else if b == Flag then Bogus else Start)
    case Bcc1Ok => m.(state := if b == Flag then End else Start)
    case _ => m.(state := Start)
  }

  function RunAck(m: AckMachine, bs: seq<byte>, n: nat): AckMachine
    decreases |bs|
  {
    if |bs| == 0 then m else RunAck(StepAck(m, bs[0], n), bs[1..], n)
  }

  /** Five steps of the RR/REJ machine, spelled out */
  lemma RunAckFive(m: AckMachine, f: seq<byte>, n: nat)
    requires |f| == 5
    ensures RunAck(m, f, n) ==
      StepAck(StepAck(StepAck(StepAck(StepAck(m, f[0], n), f[1], n), f[2], n), f[3], n), f[4], n)
  {
    var s1 := StepAck(m, f[0], n);
    var s2 := StepAck(s1, f[1], n);
    var s3 := StepAck(s2, f[2], n);
    var s4 := StepAck(s3, f[3], n);
    assert RunAck(m, f, n) == RunAck(s1, f[1..], n);
    assert RunAck(s1, f[1..], n) == RunAck(s2, f[2..], n) by { assert f[1..][1..] == f[2..]; }
    assert RunAck(s2, f[2..], n) == RunAck(s3, f[3..], n) by { assert f[2..][1..] == f[3..]; }
    assert RunAck(s3, f[3..], n) == RunAck(s4, f[4..], n) by { assert f[3..][1..] == f[4..]; }
    assert RunAck(s4, f[4..], n) == StepAck(s4, f[4], n) by { assert f[4..][1..] == []; }
  }

  /** The frame that completes frame n successfully */
  function AckFrame(n: nat): seq<byte>
  {
    ControlFrame(AReceiver, AckByte(n))
  }

  /** The frame that completes as a rejection of frame n: its BCC1 uses C_REJ, not its own C */
  function NackFrame(n: nat): seq<byte>
  {
    [Flag, AReceiver, NackByte(n), AReceiver ^ RejControl(n), Flag]
  }

  /** The octets the two accepted frames actually have */
  lemma AcceptedFrameOctets(n: nat)
    ensures n % 2 == 0 ==> AckFrame(n) == [0x7E, 0x01, 0xAB, 0xAA, 0x7E]
    ensures n % 2 == 0 ==> NackFrame(n) == [0x7E, 0x01, 0xAA, 0x55, 0x7E]
    ensures n % 2 == 1 ==> AckFrame(n) == [0x7E, 0x01, 0xAC, 0xAD, 0x7E]
    ensures n % 2 == 1 ==> NackFrame(n) == [0x7E, 0x01, 0xAB, 0x54, 0x7E]
  {
  }

  /** Invariant of every machine whose C_RCV and later states were entered through A_RCV under frame n */
  predicate Consistent(m: AckMachine, n: nat)
  {
    m.state in {CRcv, Bcc1Ok, End} ==>
      m.control == AckByte(n) || (m.control == RejControl(n) && m.isRej)
  }

  /** The frame the machine is in the middle of, judged by the control it recorded */
  function CurrentFrame(m: AckMachine, n: nat): seq<byte>
  {
    if m.control == AckByte(n) then AckFrame(n) else NackFrame(n)
  }

  function AckPartial(m: AckMachine, n: nat): seq<byte>
  {
    match m.state
    case FlagRcv => [Flag]
    case ARcv => [Flag, AReceiver]
    case CRcv => CurrentFrame(m, n)[..3]
    case Bcc1Ok => CurrentFrame(m, n)[..4]
    case End => CurrentFrame(m, n)
    case _ => []
  }

  lemma StepAckConsistent(m: AckMachine, b: byte, n: nat)
    requires Consistent(m, n)
    ensures Consistent(StepAck(m, b, n), n)
  {
    var r := StepAck(m, b, n);
    if r.control != m.control {
      assert m.state == ARcv && r.state == CRcv;
    }
  }

  lemma CurrentFrameShape(m: AckMachine, n: nat)
    requires m.control == AckByte(n) || m.control == RejControl(n)
    ensures var f := CurrentFrame(m, n);
      && |f| == 5 && f[0] == Flag && f[1] == AReceiver && f[3] == AReceiver ^ m.control && f[4] == Flag
      && f[2] == (if m.control == AckByte(n) then AckByte(n) else NackByte(n))
  {
  }

  lemma AdvanceToCRcv(m: AckMachine, b: byte, n: nat)
    requires m.state == ARcv && StepAck(m, b, n).state == CRcv
    ensures AckPartial(m, n) + [b] == AckPartial(StepAck(m, b, n), n)
  {
    var r := StepAck(m, b, n);
    assert AckByte(n) != RejControl(n);
    assert b == AckByte(n) || b == NackByte(n);
    CurrentFrameShape(r, n);
  }

  lemma AdvanceToBcc1(m: AckMachine, b: byte, n: nat)
    requires Consistent(m, n)
    requires m.state == CRcv && StepAck(m, b, n).state == Bcc1Ok
    ensures AckPartial(m, n) + [b] == AckPartial(StepAck(m, b, n), n)
  {
    var r := StepAck(m, b, n);
    var f := CurrentFrame(m, n);
    assert r.control == m.control && b == AReceiver ^ m.control;
    assert CurrentFrame(r, n) == f;
    CurrentFrameShape(m, n);
    assert AckPartial(m, n) == f[..3];
    assert AckPartial(r, n) == f[..4];
    assert f[..4] == f[..3] + [f[3]];
  }

  lemma AdvanceToEnd(m: AckMachine, b: byte, n: nat)
    requires Consistent(m, n)
    requires m.state == Bcc1Ok && StepAck(m, b, n).state == End
    ensures AckPartial(m, n) + [b] == AckPartial(StepAck(m, b, n), n)
  {
    var r := StepAck(m, b, n);
    var f := CurrentFrame(m, n);
    assert r.control == m.control && b == Flag;
    assert CurrentFrame(r, n) == f;
    CurrentFrameShape(m, n);
    assert AckPartial(m, n) == f[..4];
    assert AckPartial(r, n) == f;
    assert f == f[..4] + [f[4]];
  }

  /** A step that does not fall back to START extends the claimed prefix by the octet read */
  lemma StepAckAdvances(m: AckMachine, b: byte, n: nat)
    requires Consistent(m, n)
    requires StepAck(m, b, n).state != Start && StepAck(m, b, n).state != Bogus
    ensures AckPartial(m, n) + [b] == AckPartial(StepAck(m, b, n), n)
  {
    match m.state
    case Start =>
    case FlagRcv =>
    case ARcv => AdvanceToCRcv(m, b, n);
    case CRcv => AdvanceToBcc1(m, b, n);
    case Bcc1Ok => AdvanceToEnd(m, b, n);
    case _ =>
  }

  lemma StepAckSound(m: AckMachine, b: byte, n: nat)
    requires Consistent(m, n)
    ensures EndsWith(AckPartial(m, n) + [b], AckPartial(StepAck(m, b, n), n))
  {
    var r := StepAck(m, b, n);
    var s := AckPartial(m, n) + [b];
    if r.state == Start || r.state == Bogus {
      assert AckPartial(r, n) == [];
      assert s[|s| - 0..] == [];
    } else {
      StepAckAdvances(m, b, n);
      assert s[|s| - |s|..] == s;
    }
  }

  lemma {:induction false} RunAckSound(m: AckMachine, bs: seq<byte>, n: nat)
    requires Consistent(m, n)
    ensures Consistent(RunAck(m, bs, n), n)
    ensures m.isRej ==> RunAck(m, bs, n).isRej
    ensures EndsWith(AckPartial(m, n) + bs, AckPartial(RunAck(m, bs, n), n))
    decreases |bs|
  {
    if |bs| == 0 {
      assert AckPartial(m, n) + bs == AckPartial(m, n);
    } else {
      var b, rest := bs[0], bs[1..];
      var m' := StepAck(m, b, n);
      var p, p', q := AckPartial(m, n), AckPartial(m', n), AckPartial(RunAck(m', rest, n), n);
      assert RunAck(m, bs, n) == RunAck(m', rest, n);
      StepAckConsistent(m, b, n);
      StepAckSound(m, b, n);
      RunAckSound(m', rest, n);
      assert bs == [b] + rest;
      EndsWithChain(p, b, rest, p', q);
    }
  }

  /**
    Started in START, the RR/REJ machine reaches END only on one of the two accepted
    frames; without a rejection flag raised, the frame was the positive acknowledgement;
    a rejection frame always leaves the flag raised.
   */
  lemma RunAckEndsOnAcceptedFrame(m: AckMachine, bs: seq<byte>, n: nat)
    requires m.state == Start
    requires RunAck(m, bs, n).state == End
    ensures EndsWith(bs, AckFrame(n)) || EndsWith(bs, NackFrame(n))
    ensures !RunAck(m, bs, n).isRej ==> EndsWith(bs, AckFrame(n))
    ensures EndsWith(bs, NackFrame(n)) ==> RunAck(m, bs, n).isRej
  {
    RunAckSound(m, bs, n);
    assert AckPartial(m, n) + bs == bs;
    var r := RunAck(m, bs, n);
    assert AckFrame(n)[2] != NackFrame(n)[2];
  }

  /** From START, each accepted frame completes, with isRej set exactly as the code sets it */
  lemma AcceptedFramesComplete(m: AckMachine, n: nat)
    requires m.state == Start
    ensures RunAck(m, AckFrame(n), n) == m.(state := End, control := AckByte(n))
    ensures RunAck(m, NackFrame(n), n) == m.(state := End, control := RejControl(n), isRej := true)
  {
    RunAckFive(m, AckFrame(n), n);
    RunAckFive(m, NackFrame(n), n);
    assert AckByte(n) != NackByte(n);
  }

  /** The nominal REJ frame (C = C_REJ + n % 2) is never completed from START */
  lemma NominalRejectionIgnored(m: AckMachine, n: nat)
    requires m.state == Start
    ensures RunAck(m, ControlFrame(AReceiver, RejControl(n)), n).state != End
  {
    RunAckFive(m, ControlFrame(AReceiver, RejControl(n)), n);
  }

  /**
    While an odd-numbered frame is outstanding, the nominal RR(0) frame 7E 01 AA AB 7E is
    ignored, and the nominal RR(1) frame 7E 01 AB AA 7E is read as a rejection octet with
    a bad BCC1: it completes nothing but leaves isRej raised.
   */
  lemma NominalAcknowledgementsOfOddFrame(m: AckMachine, n: nat)
    requires m.state == Start && n % 2 == 1
    ensures var r := RunAck(m, ControlFrame(AReceiver, 0xAA), n); r.state != End && r.isRej == m.isRej
    ensures var r := RunAck(m, ControlFrame(AReceiver, 0xAB), n); r.state != End && r.isRej
  {
    RunAckFive(m, ControlFrame(AReceiver, 0xAA), n);
    RunAckFive(m, ControlFrame(AReceiver, 0xAB), n);
  }
}

=== FILE: retry.dfy ===
/**
  The bounded-retry loops of code_project/src/link_layer.c: sendSetFrame
  (transmitter side of the opening handshake), sendUAFrame (receiver side)
  and llwrite (one information frame, stop-and-wait).

  Each loop is a recursive function over a finite trace of events: a read
  of the serial port (one octet, nothing, or an error) or the expiry of
  the pending alarm. The alarm handler's effect (alarmEnabled cleared,
  alarmCount incremented) is applied where the trace places the expiry,
  at the head of the loop. An expiry with no alarm pending does nothing.
  The globals the code shares between calls (alarm bookkeeping,
  state_command, control, frame_numb) travel in a `Link` value, so a
  call starts from whatever the previous one left behind.
 */
module Retry {
  import opened Wire
  import opened Frames
  import opened Recognisers

  datatype ReadResult = Got(b: byte) | Nothing | Failed

  datatype Event = AlarmFires | Read(result: ReadResult)

  /** nRetransmissions and timeout as set by llopen */
  datatype Config = Config(retries: int, timeout: int)

  /** alarmEnabled, alarmCount, and whether an alarm is pending in the kernel */
  datatype AlarmState = AlarmState(enabled: bool, count: int, armed: bool)

  /** The globals the link layer keeps between calls */
  datatype Link = Link(alarm: AlarmState, state: State, control: byte, frameNumb: nat)

  /** Returned(code): the call returned; Waiting: the trace ended inside the loop;
      Hung: the call loops forever without reading again */
  datatype Status = Returned(code: int) | Waiting | Hung

  /** A transmitter call: its status, the globals after it, frames written, events consumed */
  datatype Outcome = Outcome(status: Status, link: Link, writes: nat, consumed: nat)

  /** llwrite also reports its local isRej */
  datatype Transmission = Transmission(status: Status, link: Link, isRej: bool, writes: nat, consumed: nat)

  /** A receiver call: the recogniser state it ends in and the octets it wrote back */
  datatype Reply = Reply(status: Status, state: State, consumed: nat, sent: seq<byte>)

  /** The handler alarmHandler, run only when an alarm is pending */
  function Fire(a: AlarmState): AlarmState
  {
    if a.armed then AlarmState(false, a.count + 1, false) else a
  }

  /** alarm(timeout); alarmEnabled = TRUE. alarm(0) schedules nothing. */
  function Arm(a: AlarmState, timeout: int): AlarmState
  {
    AlarmState(true, a.count, timeout != 0)
  }

  /** alarm(0): cancels the pending alarm and leaves alarmEnabled as it is */
  function Cancel(a: AlarmState): AlarmState
  {
    a.(armed := false)
  }

  /** The head of an iteration: with no alarm running, arm one (and write the frame) */
  function ArmIfIdle(cfg: Config, l: Link): (r: Link)
    ensures r.alarm.enabled && r.alarm.count == l.alarm.count
    ensures r.state == l.state && r.control == l.control && r.frameNumb == l.frameNumb
    ensures l.alarm.enabled ==> r == l
  {
    if l.alarm.enabled then l else l.(alarm := Arm(l.alarm, cfg.timeout))
  }

  /** Frames written once the head of an iteration has run */
  function WritesIfIdle(l: Link, writes: nat): (r: nat)
    ensures r == writes + (if l.alarm.enabled then 0 else 1)
  {
    if l.alarm.enabled then writes else writes + 1
  }

  /** The globals after one octet: state and control from the machine, the alarm cancelled once a frame completed */
  function Settle(l: Link, m: AckMachine): (r: Link)
    ensures r.frameNumb == l.frameNumb && Machine(r, m.isRej) == m
    ensures r.alarm.enabled == l.alarm.enabled && r.alarm.count == l.alarm.count
    ensures r.alarm.armed == (l.alarm.armed && m.state != End)
  {
    var l2 := l.(state := m.state, control := m.control);
    if m.state == End then l2.(alarm := Cancel(l2.alarm)) else l2
  }

  /** Most writes a call can make: nRetransmissions, or none when it is not positive */
  function Cap(cfg: Config): nat
  {
    if cfg.retries > 0 then cfg.retries else 0
  }

  /** The retry invariant: one write per alarm firing, plus the write that armed the current alarm */
  predicate Budget(cfg: Config, a: AlarmState, writes: nat)
  {
    && 0 <= a.count <= Cap(cfg)
    && writes <= Cap(cfg)
    && writes <= a.count + (if a.enabled then 1 else 0)
  }

  lemma TakeCons<T>(s: seq<T>, c: nat)
    requires c < |s|
    ensures s[..c + 1] == [s[0]] + s[1..][..c]
    ensures s[..c + 1][0] == s[0] && s[..c + 1][1..] == s[1..][..c]
  {
  }

  // ---------------------------------------------------------------------
  // sendSetFrame
  // ---------------------------------------------------------------------

  /** Octets of the trace's successful reads, in order: what the UA recogniser is fed */
  function Delivered(evs: seq<Event>): seq<byte>
  {
    if |evs| == 0 then []
    else (if evs[0].Read? && evs[0].result.Got? then [evs[0].result.b] else []) + Delivered(evs[1..])
  }

  lemma DeliveredCons(evs: seq<Event>, c: nat)
    requires c < |evs|
    ensures evs[0].Read? && evs[0].result.Got? ==>
              Delivered(evs[..c + 1]) == [evs[0].result.b] + Delivered(evs[1..][..c])
    ensures !(evs[0].Read? && evs[0].result.Got?) ==> Delivered(evs[..c + 1]) == Delivered(evs[1..][..c])
  {
    TakeCons(evs, c);
  }

  lemma RunUaCons(st: State, b: byte, bs: seq<byte>)
    ensures RunUa(st, [b] + bs) == RunUa(StepControl(st, b, AReceiver, CUa), bs)
  {
    assert ([b] + bs)[1..] == bs;
  }

  /**
    The loop of sendSetFrame from its head: stop at the retry limit (cancelling the
    alarm); write SET when no alarm is running; a read error returns -1, an empty read
    does nothing, an octet steps the UA recogniser, and END returns 0.
   */
  function SetLoop(cfg: Config, l: Link, writes: nat, evs: seq<Event>): (r: Outcome)
    requires Budget(cfg, l.alarm, writes)
    ensures Budget(cfg, r.link.alarm, r.writes)
    ensures r.writes >= writes
    ensures r.consumed <= |evs|
    ensures r.link.frameNumb == l.frameNumb && r.link.control == l.control
    ensures !r.status.Hung?
    ensures r.status.Waiting? ==> r.consumed == |evs| && r.link.alarm.count < cfg.retries
    ensures r.status.Returned? ==> r.status.code == 0 || r.status.code == -1
    ensures r.status == Returned(0) ==> r.link.state == End && r.link.alarm.enabled
    ensures r.status == Returned(-1) ==>
              r.link.alarm.count >= cfg.retries || (r.consumed > 0 && evs[r.consumed - 1] == Read(Failed))
    ensures forall i | 0 <= i < r.consumed && evs[i] == Read(Failed) :: i == r.consumed - 1 && r.status == Returned(-1)
    ensures l.state != End ==> (r.status == Returned(0) <==> r.link.state == End)
    decreases |evs|
  {
    if l.alarm.count >= cfg.retries then
      Outcome(Returned(-1), l.(alarm := Cancel(l.alarm)), writes, 0)
    else if |evs| == 0 then
      Outcome(Waiting, l, writes, 0)
    else if evs[0].AlarmFires? then
      var r := SetLoop(cfg, l.(alarm := Fire(l.alarm)), writes, evs[1..]);
      r.(consumed := r.consumed + 1)
    else
      var l1 := ArmIfIdle(cfg, l);
      var w1 := WritesIfIdle(l, writes);
      match evs[0].result
      case Failed =>
        Outcome(Returned(-1), l1, w1, 1)
      case Nothing =>
        var r := SetLoop(cfg, l1, w1, evs[1..]);
        r.(consumed := r.consumed + 1)
      case Got(b) =>
        var st := StepControl(l1.state, b, AReceiver, CUa);
        if st == End then
          Outcome(Returned(0), l1.(state := st), w1, 1)
        else
          var r := SetLoop(cfg, l1.(state := st), w1, evs[1..]);
            r.(consumed := r.consumed + 1)
  }

  /** An alarm expiry delivers no octet: the recogniser equation carries over */
  lemma UaOverExpiry(cfg: Config, l: Link, writes: nat, evs: seq<Event>)
    requires Budget(cfg, l.alarm, writes) && l.alarm.count < cfg.retries && |evs| > 0 && evs[0] == AlarmFires
    requires var r' := SetLoop(cfg, l.(alarm := Fire(l.alarm)), writes, evs[1..]);
      r'.link.state == RunUa(l.state, Delivered(evs[1..][..r'.consumed]))
    ensures var r := SetLoop(cfg, l, writes, evs);
      r.link.state == RunUa(l.state, Delivered(evs[..r.consumed]))
  {
    var r := SetLoop(cfg, l, writes, evs);
    var r' := SetLoop(cfg, l.(alarm := Fire(l.alarm)), writes, evs[1..]);
    assert r == r'.(consumed := r'.consumed + 1);
    DeliveredCons(evs, r'.consumed);
  }

  /** An empty read delivers no octet: the recogniser equation carries over */
  lemma UaOverEmptyRead(cfg: Config, l: Link, writes: nat, evs: seq<Event>)
    requires Budget(cfg, l.alarm, writes) && l.alarm.count < cfg.retries && |evs| > 0 && evs[0] == Read(Nothing)
    requires var r' := SetLoop(cfg, ArmIfIdle(cfg, l), WritesIfIdle(l, writes), evs[1..]);
      r'.link.state == RunUa(l.state, Delivered(evs[1..][..r'.consumed]))
    ensures var r := SetLoop(cfg, l, writes, evs);
      r.link.state == RunUa(l.state, Delivered(evs[..r.consumed]))
  {
    var r := SetLoop(cfg, l, writes, evs);
    var r' := SetLoop(cfg, ArmIfIdle(cfg, l), WritesIfIdle(l, writes), evs[1..]);
    assert r == r'.(consumed := r'.consumed + 1);
    DeliveredCons(evs, r'.consumed);
  }

  /** An octet that does not complete UA steps the recogniser once */
  lemma UaOverOctet(cfg: Config, l: Link, writes: nat, evs: seq<Event>, st: State)
    requires Budget(cfg, l.alarm, writes) && l.alarm.count < cfg.retries && |evs| > 0 && evs[0].Read?
    requires evs[0].result.Got? && st == StepControl(l.state, evs[0].result.b, AReceiver, CUa) && st != End
    requires var r' := SetLoop(cfg, ArmIfIdle(cfg, l).(state := st), WritesIfIdle(l, writes), evs[1..]);
      r'.link.state == RunUa(st, Delivered(evs[1..][..r'.consumed]))
    ensures var r := SetLoop(cfg, l, writes, evs);
      r.link.state == RunUa(l.state, Delivered(evs[..r.consumed]))
  {
    var b := evs[0].result.b;
    var r := SetLoop(cfg, l, writes, evs);
    var r' := SetLoop(cfg, ArmIfIdle(cfg, l).(state := st), WritesIfIdle(l, writes), evs[1..]);
    assert r == r'.(consumed := r'.consumed + 1);
    var d := Delivered(evs[1..][..r'.consumed]);
    DeliveredCons(evs, r'.consumed);
    RunUaCons(l.state, b, d);
  }

  /** The recogniser state sendSetFrame leaves behind is the UA recogniser run over the octets read */
  lemma {:induction false} SetLoopFollowsRecogniser(cfg: Config, l: Link, writes: nat, evs: seq<Event>)
    requires Budget(cfg, l.alarm, writes)
    ensures var r := SetLoop(cfg, l, writes, evs);
      r.link.state == RunUa(l.state, Delivered(evs[..r.consumed]))
    decreases |evs|
  {
    var r := SetLoop(cfg, l, writes, evs);
    if l.alarm.count >= cfg.retries || |evs| == 0 {
      assert r.consumed == 0 && Delivered(evs[..0]) == [];
    } else if evs[0].AlarmFires? {
      SetLoopFollowsRecogniser(cfg, l.(alarm := Fire(l.alarm)), writes, evs[1..]);
      UaOverExpiry(cfg, l, writes, evs);
    } else {
      var l1 := ArmIfIdle(cfg, l);
      var w1 := WritesIfIdle(l, writes);
      match evs[0].result
      case Failed =>
        assert r.consumed == 1 && r.link.state == l.state;
        assert evs[..1] == [Read(Failed)];
        assert Delivered(evs[..1]) == [];
      case Nothing =>
        SetLoopFollowsRecogniser(cfg, l1, w1, evs[1..]);
        UaOverEmptyRead(cfg, l, writes, evs);
      case Got(b) =>
        var st := StepControl(l.state, b, AReceiver, CUa);
        if st == End {
          assert r.consumed == 1 && r.link.state == st;
          assert evs[..1] == [evs[0]] && evs[..1][1..] == [];
          assert Delivered(evs[..1]) == [b] + [];
          assert RunUa(l.state, [b]) == RunUa(st, []) by { assert [b][1..] == []; }
        } else {
          SetLoopFollowsRecogniser(cfg, l1.(state := st), w1, evs[1..]);
          UaOverOctet(cfg, l, writes, evs, st);
        }
    }
  }

  /** No octet read before the last event consumed brought the UA recogniser to END */
  lemma {:induction false} SetLoopPassesNoEnd(cfg: Config, l: Link, writes: nat, evs: seq<Event>, k: nat)
    requires Budget(cfg, l.alarm, writes)
    requires 0 < k < SetLoop(cfg, l, writes, evs).consumed
    requires evs[k - 1].Read? && evs[k - 1].result.Got?
    ensures RunUa(l.state, Delivered(evs[..k])) != End
    decreases k
  {
    if evs[0].AlarmFires? {
      var lf := l.(alarm := Fire(l.alarm));
      SetLoopPassesNoEnd(cfg, lf, writes, evs[1..], k - 1);
      DeliveredCons(evs, k - 1);
    } else if evs[0].result.Nothing? {
      SetLoopPassesNoEnd(cfg, ArmIfIdle(cfg, l), WritesIfIdle(l, writes), evs[1..], k - 1);
      DeliveredCons(evs, k - 1);
    } else {
      var b := evs[0].result.b;
      var st := StepControl(l.state, b, AReceiver, CUa);
      DeliveredCons(evs, k - 1);
      if k == 1 {
        assert evs[1..][..0] == [];
        RunUaCons(l.state, b, []);
      } else {
        SetLoopPassesNoEnd(cfg, ArmIfIdle(cfg, l).(state := st), WritesIfIdle(l, writes), evs[1..], k - 1);
        RunUaCons(l.state, b, Delivered(evs[1..][..k - 1]));
      }
    }
  }

  /** The loop stops at the first octet that brings the UA recogniser to END, not later */
  lemma SetLoopStopsAtFirstEnd(cfg: Config, l: Link, writes: nat, evs: seq<Event>)
    requires Budget(cfg, l.alarm, writes)
    ensures var r := SetLoop(cfg, l, writes, evs);
      forall k | 0 < k < r.consumed && evs[k - 1].Read? && evs[k - 1].result.Got? ::
        RunUa(l.state, Delivered(evs[..k])) != End
  {
    var r := SetLoop(cfg, l, writes, evs);
    forall k | 0 < k < r.consumed && evs[k - 1].Read? && evs[k - 1].result.Got?
      ensures RunUa(l.state, Delivered(evs[..k])) != End
    {
      SetLoopPassesNoEnd(cfg, l, writes, evs, k);
    }
  }

  /** sendSetFrame: alarmCount and the recogniser are reset, alarmEnabled is not */
  function SendSetFrame(cfg: Config, l: Link, evs: seq<Event>): (r: Outcome)
    ensures r.writes <= Cap(cfg)
    ensures r.status.Returned? ==> (r.status.code == 0 <==> r.link.state == End)
    ensures r.consumed <= |evs|
    ensures r.status == Returned(-1) ==>
              r.link.alarm.count >= cfg.retries || (r.consumed > 0 && evs[r.consumed - 1] == Read(Failed))
    ensures forall i | 0 <= i < r.consumed && evs[i] == Read(Failed) :: i == r.consumed - 1 && r.status == Returned(-1)
    ensures r.link.state == End ==> r.status == Returned(0)
  {
    SetLoop(cfg, l.(alarm := l.alarm.(count := 0), state := Start), 0, evs)
  }

  /** sendSetFrame returns at the first octet that completes a UA frame, reading no further */
  lemma SendSetFrameStopsAtFirstUa(cfg: Config, l: Link, evs: seq<Event>)
    ensures var r := SendSetFrame(cfg, l, evs);
      forall k | 0 < k < r.consumed && evs[k - 1].Read? && evs[k - 1].result.Got? ::
        RunUa(Start, Delivered(evs[..k])) != End
  {
    SetLoopStopsAtFirstEnd(cfg, l.(alarm := l.alarm.(count := 0), state := Start), 0, evs);
  }

  /** The state sendSetFrame leaves behind is the UA recogniser run from START over the octets read */
  lemma SendSetFrameFollowsRecogniser(cfg: Config, l: Link, evs: seq<Event>)
    ensures var r := SendSetFrame(cfg, l, evs);
      r.link.state == RunUa(Start, Delivered(evs[..r.consumed]))
  {
    SetLoopFollowsRecogniser(cfg, l.(alarm := l.alarm.(count := 0), state := Start), 0, evs);
  }

  /** sendSetFrame returns 0 only once the last five octets read were the UA frame */
  lemma SendSetFrameSound(cfg: Config, l: Link, evs: seq<Event>)
    requires SendSetFrame(cfg, l, evs).status == Returned(0)
    ensures EndsWith(Delivered(evs[..SendSetFrame(cfg, l, evs).consumed]), UaFrame())
  {
    var r := SendSetFrame(cfg, l, evs);
    SendSetFrameFollowsRecogniser(cfg, l, evs);
    RunControlEndsOnFrame(Delivered(evs[..r.consumed]), AReceiver, CUa);
  }

  /** Reads delivering the octets bs */
  function Reads(bs: seq<byte>): (evs: seq<Event>)
    ensures |evs| == |bs|
    ensures forall i | 0 <= i < |bs| :: evs[i] == Read(Got(bs[i]))
  {
    if |bs| == 0 then [] else [Read(Got(bs[0]))] + Reads(bs[1..])
  }

  /** Before the frame is complete no proper prefix of it takes the recogniser to END */
  lemma ProperPrefixNotRecognised(bs: seq<byte>, k: nat, a: byte, c: byte)
    requires k < 5 && k <= |bs|
    ensures RunControl(Start, bs[..k], a, c) != End
  {
    RunControlSound(Start, bs[..k], a, c);
  }

  /**
    When the octets read complete a UA frame, the loop returns 0 at the octet that
    completes it, whatever the trace holds after it.
   */
  lemma {:induction false} SetLoopReturnsOnUa(cfg: Config, l: Link, writes: nat, bs: seq<byte>, rest: seq<Event>)
    requires Budget(cfg, l.alarm, writes) && l.alarm.count < cfg.retries
    requires |bs| > 0 && RunUa(l.state, bs) == End
    requires forall k | 0 < k < |bs| :: RunUa(l.state, bs[..k]) != End
    ensures SetLoop(cfg, l, writes, Reads(bs) + rest).status == Returned(0)
    ensures SetLoop(cfg, l, writes, Reads(bs) + rest).consumed == |bs|
    decreases |bs|
  {
    var l1 := ArmIfIdle(cfg, l);
    var w1 := WritesIfIdle(l, writes);
    var st := StepControl(l1.state, bs[0], AReceiver, CUa);
    var evs := Reads(bs) + rest;
    assert evs[0] == Read(Got(bs[0]));
    assert l1.state == l.state;
    assert RunUa(l.state, bs) == RunUa(st, bs[1..]);
    if |bs| == 1 {
      assert bs[1..] == [];
    } else {
      assert bs[..1][1..] == [];
      assert RunUa(l.state, bs[..1]) == RunUa(st, []);
      assert st != End;
      assert RunUa(st, bs[1..]) == End;
      forall k | 0 < k < |bs[1..]|
        ensures RunUa(st, bs[1..][..k]) != End
      {
        assert bs[..k + 1][1..] == bs[1..][..k];
        assert RunUa(l.state, bs[..k + 1]) != End;
      }
      assert evs[1..] == Reads(bs[1..]) + rest;
      SetLoopReturnsOnUa(cfg, l1.(state := st), w1, bs[1..], rest);
    }
  }

  /**
    A UA frame answered to the first SET completes the handshake after exactly five
    reads, whatever would have been read after it.
   */
  lemma SendSetFrameAcceptsUa(cfg: Config, l: Link, rest: seq<Event>)
    requires cfg.retries > 0
    ensures SendSetFrame(cfg, l, Reads(UaFrame()) + rest).status == Returned(0)
    ensures SendSetFrame(cfg, l, Reads(UaFrame()) + rest).consumed == 5
  {
    var u := UaFrame();
    RunControlFive(Start, u, AReceiver, CUa);
    forall k | 0 < k < 5
      ensures RunUa(Start, u[..k]) != End
    {
      ProperPrefixNotRecognised(u, k, AReceiver, CUa);
    }
    SetLoopReturnsOnUa(cfg, Link(AlarmState(l.alarm.enabled, 0, l.alarm.armed), Start, l.control, l.frameNumb), 0, u, rest);
  }

  /** k rounds of a channel that never answers: an empty read, then the alarm expires */
  function Silence(k: nat): (evs: seq<Event>)
    ensures |evs| == 2 * k
  {
    if k == 0 then [] else [Read(Nothing)] + ([AlarmFires] + Silence(k - 1))
  }

  lemma SetLoopExpiry(cfg: Config, l: Link, writes: nat, rest: seq<Event>)
    requires Budget(cfg, l.alarm, writes) && l.alarm.count < cfg.retries
    ensures var r := SetLoop(cfg, l.(alarm := Fire(l.alarm)), writes, rest);
      SetLoop(cfg, l, writes, [AlarmFires] + rest) == r.(consumed := r.consumed + 1)
  {
    assert ([AlarmFires] + rest)[1..] == rest;
  }

  lemma SetLoopEmptyRead(cfg: Config, l: Link, writes: nat, rest: seq<Event>)
    requires Budget(cfg, l.alarm, writes) && l.alarm.count < cfg.retries
    ensures var r := SetLoop(cfg, ArmIfIdle(cfg, l), WritesIfIdle(l, writes), rest);
      SetLoop(cfg, l, writes, [Read(Nothing)] + rest) == r.(consumed := r.consumed + 1)
  {
    assert ([Read(Nothing)] + rest)[1..] == rest;
  }

  /** One unanswered round of sendSetFrame: SET is written, nothing arrives, the alarm expires */
  lemma SetSilentRound(cfg: Config, l: Link, writes: nat, rest: seq<Event>)
    requires cfg.timeout != 0 && 0 <= l.alarm.count < cfg.retries
    requires !l.alarm.enabled && writes == l.alarm.count
    ensures var r := SetLoop(cfg, l, writes, [Read(Nothing)] + ([AlarmFires] + rest));
      var r' := SetLoop(cfg, l.(alarm := AlarmState(false, l.alarm.count + 1, false)), writes + 1, rest);
      r.status == r'.status && r.writes == r'.writes
  {
    var l1 := ArmIfIdle(cfg, l);
    var w1 := WritesIfIdle(l, writes);
    SetLoopEmptyRead(cfg, l, writes, [AlarmFires] + rest);
    SetLoopExpiry(cfg, l1, w1, rest);
    assert w1 == writes + 1;
    assert l1.(alarm := Fire(l1.alarm)) == l.(alarm := AlarmState(false, l.alarm.count + 1, false));
  }

  lemma {:induction false} SetLoopExhausts(cfg: Config, l: Link, writes: nat, k: nat)
    requires cfg.timeout != 0 && 0 <= l.alarm.count && k == cfg.retries - l.alarm.count
    requires !l.alarm.enabled && writes == l.alarm.count
    ensures var r := SetLoop(cfg, l, writes, Silence(k));
      r.status == Returned(-1) && r.writes == cfg.retries
    decreases k
  {
    if k > 0 {
      SetSilentRound(cfg, l, writes, Silence(k - 1));
      SetLoopExhausts(cfg, l.(alarm := AlarmState(false, l.alarm.count + 1, false)), writes + 1, k - 1);
    }
  }

  /**
    Bounded retry: when every SET goes unanswered and each alarm expires, sendSetFrame
    gives up with -1 after exactly nRetransmissions writes.
   */
  lemma SilentChannelExhaustsRetries(cfg: Config, l: Link)
    requires cfg.timeout != 0 && cfg.retries >= 0 && !l.alarm.enabled
    ensures var r := SendSetFrame(cfg, l, Silence(cfg.retries));
      r.status == Returned(-1) && r.writes == cfg.retries
  {
    SetLoopExhausts(cfg, l.(alarm := l.alarm.(count := 0), state := Start), 0, cfg.retries);
  }

  // ---------------------------------------------------------------------
  // sendUAFrame
  // ---------------------------------------------------------------------

  /**
    The octets state_machine_set is fed: the one-octet buffer is allocated once and
    never cleared, so an empty read feeds whatever it last held; an error is not fed.
   */
  function Received(cell: byte, input: seq<ReadResult>): seq<byte>
    decreases |input|
  {
    if |input| == 0 then []
    else match input[0]
      case Got(b) => [b] + Received(b, input[1..])
      case Nothing => [cell] + Received(cell, input[1..])
      case Failed => Received(cell, input[1..])
  }

  /** The buffer after a read */
  function Refill(cell: byte, r: ReadResult): byte
  {
    if r.Got? then r.b else cell
  }

  /**
    sendUAFrame: read until the SET recogniser reaches END (a read error returns -1),
    then write the UA frame once and return 0. No alarm guards the wait.
   */
  function SendUaFrame(st: State, cell: byte, input: seq<ReadResult>): (r: Reply)
    ensures r.consumed <= |input|
    ensures r.status.Returned? ==> r.status.code == 0 || r.status.code == -1
    ensures r.status == Returned(0) ==> r.state == End
    ensures st != End ==> (r.status == Returned(0) <==> r.state == End)
    ensures r.status == Returned(0) ==> r.sent == UaFrame()
    ensures r.status != Returned(0) ==> r.sent == []
    ensures r.status == Returned(-1) ==> r.consumed > 0 && input[r.consumed - 1] == Failed
    ensures forall i | 0 <= i < r.consumed && input[i] == Failed :: i == r.consumed - 1 && r.status == Returned(-1)
    ensures r.status.Waiting? ==> r.consumed == |input|
    ensures !r.status.Hung?
    decreases |input|
  {
    if |input| == 0 then
      Reply(Waiting, st, 0, [])
    else if input[0] == Failed then
      Reply(Returned(-1), st, 1, [])
    else
      var c := Refill(cell, input[0]);
      var st' := StepControl(st, c, ASender, CSet);
      if st' == End then
        Reply(Returned(0), st', 1, UaFrame())
      else
        var r := SendUaFrame(st', c, input[1..]);
        r.(consumed := r.consumed + 1)
  }

  /** The recogniser state sendUAFrame leaves behind is the SET recogniser run over the octets fed */
  lemma {:induction false} SendUaFrameFollowsRecogniser(st: State, cell: byte, input: seq<ReadResult>)
    ensures var r := SendUaFrame(st, cell, input);
      r.state == RunSet(st, Received(cell, input[..r.consumed]))
    decreases |input|
  {
    var r := SendUaFrame(st, cell, input);
    if |input| == 0 {
      assert Received(cell, input[..0]) == [];
    } else if input[0] == Failed {
      assert input[..1] == [Failed] && input[..1][1..] == [];
      assert Received(cell, input[..1]) == [];
    } else {
      var c := Refill(cell, input[0]);
      var st' := StepControl(st, c, ASender, CSet);
      if st' == End {
        assert input[..1] == [input[0]] && input[..1][1..] == [];
        assert Received(cell, input[..1]) == [c];
        assert RunSet(st, [c]) == RunSet(st', []) by { assert [c][1..] == []; }
      } else {
        SendUaFrameFollowsRecogniser(st', c, input[1..]);
        SetOverOctet(st, cell, input);
      }
    }
  }

  /** An octet that does not complete SET steps the recogniser once */
  lemma SetOverOctet(st: State, cell: byte, input: seq<ReadResult>)
    requires |input| > 0 && input[0] != Failed
    requires StepControl(st, Refill(cell, input[0]), ASender, CSet) != End
    requires var c := Refill(cell, input[0]);
      var r' := SendUaFrame(StepControl(st, c, ASender, CSet), c, input[1..]);
      r'.state == RunSet(StepControl(st, c, ASender, CSet), Received(c, input[1..][..r'.consumed]))
    ensures var r := SendUaFrame(st, cell, input);
      r.state == RunSet(st, Received(cell, input[..r.consumed]))
  {
    var c := Refill(cell, input[0]);
    var st' := StepControl(st, c, ASender, CSet);
    var r := SendUaFrame(st, cell, input);
    var r' := SendUaFrame(st', c, input[1..]);
    assert r == r'.(consumed := r'.consumed + 1);
    var d := Received(c, input[1..][..r'.consumed]);
    TakeCons(input, r'.consumed);
    assert Received(cell, input[..r.consumed]) == [c] + d;
    assert RunSet(st, [c] + d) == RunSet(st', d) by { assert ([c] + d)[1..] == d; }
  }

  /** No octet fed before the last read consumed brought the SET recogniser to END */
  lemma {:induction false} SendUaFramePassesNoEnd(st: State, cell: byte, input: seq<ReadResult>, k: nat)
    requires 0 < k < SendUaFrame(st, cell, input).consumed
    ensures RunSet(st, Received(cell, input[..k])) != End
    decreases k
  {
    var c := Refill(cell, input[0]);
    var st' := StepControl(st, c, ASender, CSet);
    TakeCons(input, k - 1);
    assert Received(cell, input[..k]) == [c] + Received(c, input[1..][..k - 1]);
    if k == 1 {
      assert input[1..][..0] == [];
      assert RunSet(st, [c]) == RunSet(st', []) by { assert [c][1..] == []; }
      assert st' != End;
    } else {
      SendUaFramePassesNoEnd(st', c, input[1..], k - 1);
      var d := Received(c, input[1..][..k - 1]);
      assert RunSet(st, [c] + d) == RunSet(st', d) by { assert ([c] + d)[1..] == d; }
    }
  }

  /** sendUAFrame answers at the first octet that brings the SET recogniser to END, not later */
  lemma SendUaFrameStopsAtFirstEnd(st: State, cell: byte, input: seq<ReadResult>)
    ensures forall k | 0 < k < SendUaFrame(st, cell, input).consumed :: RunSet(st, Received(cell, input[..k])) != End
  {
    forall k | 0 < k < SendUaFrame(st, cell, input).consumed
      ensures RunSet(st, Received(cell, input[..k])) != End
    {
      SendUaFramePassesNoEnd(st, cell, input, k);
    }
  }

  /** Reads delivering the octets bs, as results */
  function Gots(bs: seq<byte>): (input: seq<ReadResult>)
    ensures |input| == |bs|
    ensures forall i | 0 <= i < |bs| :: input[i] == Got(bs[i])
  {
    if |bs| == 0 then [] else [Got(bs[0])] + Gots(bs[1..])
  }

  /** A SET frame read from START is answered after exactly five reads, whatever follows it */
  lemma SendUaFrameAcceptsSet(cell: byte, rest: seq<ReadResult>)
    ensures var r := SendUaFrame(Start, cell, Gots(SetFrame()) + rest);
      r.status == Returned(0) && r.consumed == 5 && r.sent == UaFrame()
  {
    var f := SetFrame();
    var t0 := Gots(f) + rest;
    var t1 := t0[1..];
    var t2 := t1[1..];
    var t3 := t2[1..];
    var t4 := t3[1..];
    assert t0[0] == Got(f[0]) && t1[0] == Got(f[1]) && t2[0] == Got(f[2]) && t3[0] == Got(f[3]) && t4[0] == Got(f[4]);
    assert SendUaFrame(Bcc1Ok, f[3], t4) == Reply(Returned(0), End, 1, UaFrame());
    SendUaFrameStep(CRcv, f[2], t3);
    SendUaFrameStep(ARcv, f[1], t2);
    SendUaFrameStep(FlagRcv, f[0], t1);
    SendUaFrameStep(Start, cell, t0);
  }


  lemma SendUaFrameSound(cell: byte, input: seq<ReadResult>)
    requires SendUaFrame(Start, cell, input).status == Returned(0)
    ensures EndsWith(Received(cell, input[..SendUaFrame(Start, cell, input).consumed]), SetFrame())
  {
    var r := SendUaFrame(Start, cell, input);
    SendUaFrameFollowsRecogniser(Start, cell, input);
    RunControlEndsOnFrame(Received(cell, input[..r.consumed]), ASender, CSet);
  }

  /** One read that neither fails nor completes the SET: the wait goes on with the octet fed */
  lemma SendUaFrameStep(st: State, cell: byte, input: seq<ReadResult>)
    requires |input| > 0 && input[0] != Failed
    requires StepControl(st, Refill(cell, input[0]), ASender, CSet) != End
    ensures var c := Refill(cell, input[0]);
      var x := SendUaFrame(StepControl(st, c, ASender, CSet), c, input[1..]);
      SendUaFrame(st, cell, input) == x.(consumed := x.consumed + 1)
  {
  }

  /**
    An idle read right after the opening flag re-feeds the flag, which sends the recogniser
    to the out-of-range state: the SET that follows is lost.
   */
  lemma IdleGapAfterFlagLosesSet(cell: byte)
    ensures SendUaFrame(Start, cell, [Got(Flag), Nothing, Got(ASender), Got(CSet), Got(0x00), Got(Flag)]).status == Waiting
  {
    var t0: seq<ReadResult> := [Got(Flag), Nothing, Got(ASender), Got(CSet), Got(0x00), Got(Flag)];
    var t1 := t0[1..];
    var t2 := t1[1..];
    var t3 := t2[1..];
    var t4 := t3[1..];
    var t5 := t4[1..];
    assert t1[0] == Nothing && t2[0] == Got(ASender) && t3[0] == Got(CSet);
    assert t4[0] == Got(0x00) && t5[0] == Got(Flag) && |t5[1..]| == 0;
    assert SendUaFrame(FlagRcv, Flag, t5[1..]).status == Waiting;
    SendUaFrameStep(Start, 0x00, t5);
    assert SendUaFrame(Start, 0x00, t5).status == Waiting;
    SendUaFrameStep(Start, CSet, t4);
    assert SendUaFrame(Start, CSet, t4).status == Waiting;
    SendUaFrameStep(Start, ASender, t3);
    assert SendUaFrame(Start, ASender, t3).status == Waiting;
    SendUaFrameStep(Bogus, Flag, t2);
    assert SendUaFrame(Bogus, Flag, t2).status == Waiting;
    SendUaFrameStep(FlagRcv, Flag, t1);
    assert SendUaFrame(FlagRcv, Flag, t1).status == Waiting;
    SendUaFrameStep(Start, cell, t0);
  }

  // ---------------------------------------------------------------------
  // llwrite
  // ---------------------------------------------------------------------

  /** The octets state_machine_RR_REJ is fed: every read feeds the buffer, refilled or not */
  function Feed(cell: byte, evs: seq<Event>): seq<byte>
    decreases |evs|
  {
    if |evs| == 0 then []
    else if evs[0].AlarmFires? then Feed(cell, evs[1..])
    else var c := Refill(cell, evs[0].result); [c] + Feed(c, evs[1..])
  }

  function Machine(l: Link, isRej: bool): AckMachine
  {
    AckMachine(l.state, l.control, isRej)
  }

  /**
    The two loops of llwrite from the inner loop's head. A completed frame with isRej
    raised breaks out; alarm(0) cancels the pending alarm and the inner loop starts again
    without resending, since alarmEnabled stays TRUE. When alarmCount reaches
    nRetransmissions the outer while(true) spins without reading.
   */
  function WriteLoop(cfg: Config, frame: seq<byte>, l: Link, isRej: bool, cell: byte, writes: nat,
                     evs: seq<Event>): (r: Transmission)
    requires Budget(cfg, l.alarm, writes)
    ensures Budget(cfg, r.link.alarm, r.writes)
    ensures r.writes >= writes
    ensures r.consumed <= |evs|
    ensures r.status.Returned? ==>
              && r.consumed > 0
              && r.status.code == (if r.writes > 0 then |frame| else 0)
              && r.link.frameNumb == l.frameNumb + 1
              && r.link.state == End && !r.isRej
    ensures !r.status.Returned? ==> r.link.frameNumb == l.frameNumb
    ensures r.status.Waiting? ==> r.consumed == |evs|
    ensures r.status.Hung? ==> r.link.alarm.count >= cfg.retries
    ensures isRej ==> r.isRej && !r.status.Returned?
    ensures !(l.state == End && !isRej) && !r.status.Returned? ==> !(r.link.state == End && !r.isRej)
    decreases |evs|
  {
    if l.alarm.count >= cfg.retries then
      Transmission(Hung, l.(alarm := Cancel(l.alarm)), isRej, writes, 0)
    else if |evs| == 0 then
      Transmission(Waiting, l, isRej, writes, 0)
    else if evs[0].AlarmFires? then
      var r := WriteLoop(cfg, frame, l.(alarm := Fire(l.alarm)), isRej, cell, writes, evs[1..]);
      r.(consumed := r.consumed + 1)
    else
      var l1 := ArmIfIdle(cfg, l);
      var w1 := WritesIfIdle(l, writes);
      var c := Refill(cell, evs[0].result);
      var m := StepAck(Machine(l1, isRej), c, l1.frameNumb);
      if m.state == End && !m.isRej then
        var l2 := l1.(state := m.state, control := m.control, frameNumb := l1.frameNumb + 1);
        Transmission(Returned(if w1 > 0 then |frame| else 0), l2, false, w1, 1)
      else
        var r := WriteLoop(cfg, frame, Settle(l1, m), m.isRej, c, w1, evs[1..]);
        r.(consumed := r.consumed + 1)
  }

  /** One expiry in the wait for RR: the alarm handler runs and the loop goes on */
  lemma WriteLoopExpiry(cfg: Config, frame: seq<byte>, l: Link, isRej: bool, cell: byte, writes: nat,
                        rest: seq<Event>)
    requires Budget(cfg, l.alarm, writes) && l.alarm.count < cfg.retries
    ensures var r := WriteLoop(cfg, frame, l.(alarm := Fire(l.alarm)), isRej, cell, writes, rest);
      WriteLoop(cfg, frame, l, isRej, cell, writes, [AlarmFires] + rest) == r.(consumed := r.consumed + 1)
  {
    assert ([AlarmFires] + rest)[1..] == rest;
  }

  /** One read that does not complete an RR: the octet is fed and the loop goes on */
  lemma WriteLoopRead(cfg: Config, frame: seq<byte>, l: Link, isRej: bool, cell: byte, writes: nat,
                      res: ReadResult, rest: seq<Event>, m: AckMachine)
    requires Budget(cfg, l.alarm, writes) && l.alarm.count < cfg.retries
    requires m == StepAck(Machine(l, isRej), Refill(cell, res), l.frameNumb) && !(m.state == End && !m.isRej)
    ensures var r := WriteLoop(cfg, frame, Settle(ArmIfIdle(cfg, l), m), m.isRej, Refill(cell, res),
                               WritesIfIdle(l, writes), rest);
      WriteLoop(cfg, frame, l, isRej, cell, writes, [Read(res)] + rest) == r.(consumed := r.consumed + 1)
  {
    assert ([Read(res)] + rest)[1..] == rest;
    assert Machine(ArmIfIdle(cfg, l), isRej) == Machine(l, isRej);
  }

  /**
    llwrite: an oversized payload returns -1 before anything is built or written;
    otherwise the frame for the current frame number is built once and sent by WriteLoop.
   */
  function Llwrite(cfg: Config, l: Link, buf: seq<byte>, cell: byte, evs: seq<Event>): (r: Transmission)
    ensures |buf| > MaxPayloadSize ==> r == Transmission(Returned(-1), l, false, 0, 0)
    ensures r.writes <= Cap(cfg)
    ensures r.status.Returned? && r.status.code < 0 ==> |buf| > MaxPayloadSize
    ensures |buf| <= MaxPayloadSize && r.status.Returned? ==>
              && r.status.code == (if r.writes > 0 then 6 + |buf| + Specials(buf) else 0)
              && r.link.frameNumb == l.frameNumb + 1 && !r.isRej
    ensures !r.status.Returned? ==> r.link.frameNumb == l.frameNumb
    ensures |buf| <= MaxPayloadSize && !r.status.Returned? ==> !(r.link.state == End && !r.isRej)
  {
    if |buf| > MaxPayloadSize then
      Transmission(Returned(-1), l, false, 0, 0)
    else
      var frame := CreateFrame(l.frameNumb, buf);
      WriteLoop(cfg, frame, l.(alarm := l.alarm.(count := 0), state := Start), false, cell, 0, evs)
  }

  lemma FeedTake(cell: byte, evs: seq<Event>, k: nat)
    requires k < |evs|
    ensures evs[0].AlarmFires? ==> Feed(cell, evs[..k + 1]) == Feed(cell, evs[1..][..k])
    ensures evs[0].Read? ==>
              Feed(cell, evs[..k + 1]) == [Refill(cell, evs[0].result)] + Feed(Refill(cell, evs[0].result), evs[1..][..k])
  {
    TakeCons(evs, k);
  }

  lemma RunAckCons(m: AckMachine, c: byte, bs: seq<byte>, n: nat)
    ensures RunAck(m, [c] + bs, n) == RunAck(StepAck(m, c, n), bs, n)
  {
    assert ([c] + bs)[1..] == bs;
  }

  /** The machine equation carries over an alarm expiry, which feeds nothing */
  lemma {:induction false} FollowsOverExpiry(cfg: Config, frame: seq<byte>, l: Link, isRej: bool, cell: byte, writes: nat,
                          evs: seq<Event>)
    requires Budget(cfg, l.alarm, writes) && l.alarm.count < cfg.retries && |evs| > 0 && evs[0].AlarmFires?
    requires var r' := WriteLoop(cfg, frame, l.(alarm := Fire(l.alarm)), isRej, cell, writes, evs[1..]);
      Machine(r'.link, r'.isRej) == RunAck(Machine(l, isRej), Feed(cell, evs[1..][..r'.consumed]), l.frameNumb)
    ensures var r := WriteLoop(cfg, frame, l, isRej, cell, writes, evs);
      Machine(r.link, r.isRej) == RunAck(Machine(l, isRej), Feed(cell, evs[..r.consumed]), l.frameNumb)
  {
    var r' := WriteLoop(cfg, frame, l.(alarm := Fire(l.alarm)), isRej, cell, writes, evs[1..]);
    WriteLoopUnfoldsExpiry(cfg, frame, l, isRej, cell, writes, evs);
    RunAckOverExpiry(Machine(l, isRej), cell, evs, r'.consumed, l.frameNumb);
  }

  /** An expiry feeds nothing to the machine */
  lemma RunAckOverExpiry(m0: AckMachine, cell: byte, evs: seq<Event>, k: nat, n: nat)
    requires k < |evs| && evs[0].AlarmFires?
    ensures RunAck(m0, Feed(cell, evs[..k + 1]), n) == RunAck(m0, Feed(cell, evs[1..][..k]), n)
  {
    FeedTake(cell, evs, k);
  }

  /** An alarm expiry: one unfolding of the loop */
  lemma WriteLoopUnfoldsExpiry(cfg: Config, frame: seq<byte>, l: Link, isRej: bool, cell: byte, writes: nat,
                               evs: seq<Event>)
    requires Budget(cfg, l.alarm, writes) && l.alarm.count < cfg.retries && |evs| > 0 && evs[0].AlarmFires?
    ensures var r' := WriteLoop(cfg, frame, l.(alarm := Fire(l.alarm)), isRej, cell, writes, evs[1..]);
      WriteLoop(cfg, frame, l, isRej, cell, writes, evs) == r'.(consumed := r'.consumed + 1)
  {
  }

  /** A read that does not complete an RR: one unfolding of the loop */
  lemma WriteLoopUnfoldsRead(cfg: Config, frame: seq<byte>, l: Link, isRej: bool, cell: byte, writes: nat,
                             evs: seq<Event>, m: AckMachine)
    requires Budget(cfg, l.alarm, writes) && l.alarm.count < cfg.retries && |evs| > 0 && evs[0].Read?
    requires m == StepAck(Machine(l, isRej), Refill(cell, evs[0].result), l.frameNumb) && !(m.state == End && !m.isRej)
    ensures var r' := WriteLoop(cfg, frame, Settle(ArmIfIdle(cfg, l), m), m.isRej, Refill(cell, evs[0].result),
                                WritesIfIdle(l, writes), evs[1..]);
      WriteLoop(cfg, frame, l, isRej, cell, writes, evs) == r'.(consumed := r'.consumed + 1)
  {
    assert Machine(ArmIfIdle(cfg, l), isRej) == Machine(l, isRej);
  }

  /** Feeding a read's octet and then the rest is one step of the machine followed by a run */
  lemma RunAckOverRead(m0: AckMachine, cell: byte, evs: seq<Event>, k: nat, n: nat)
    requires k < |evs| && evs[0].Read?
    ensures var c := Refill(cell, evs[0].result);
      RunAck(m0, Feed(cell, evs[..k + 1]), n) == RunAck(StepAck(m0, c, n), Feed(c, evs[1..][..k]), n)
  {
    var c := Refill(cell, evs[0].result);
    FeedTake(cell, evs, k);
    RunAckCons(m0, c, Feed(c, evs[1..][..k]), n);
  }

  /** The machine equation carries over a read that does not complete an RR */
  lemma FollowsOverRead(cfg: Config, frame: seq<byte>, l: Link, isRej: bool, cell: byte, writes: nat,
                        evs: seq<Event>, m: AckMachine)
    requires Budget(cfg, l.alarm, writes) && l.alarm.count < cfg.retries && |evs| > 0 && evs[0].Read?
    requires m == StepAck(Machine(l, isRej), Refill(cell, evs[0].result), l.frameNumb) && !(m.state == End && !m.isRej)
    requires var r' := WriteLoop(cfg, frame, Settle(ArmIfIdle(cfg, l), m), m.isRej, Refill(cell, evs[0].result),
                                 WritesIfIdle(l, writes), evs[1..]);
      Machine(r'.link, r'.isRej) == RunAck(m, Feed(Refill(cell, evs[0].result), evs[1..][..r'.consumed]), l.frameNumb)
    ensures var r := WriteLoop(cfg, frame, l, isRej, cell, writes, evs);
      Machine(r.link, r.isRej) == RunAck(Machine(l, isRej), Feed(cell, evs[..r.consumed]), l.frameNumb)
  {
    var r' := WriteLoop(cfg, frame, Settle(ArmIfIdle(cfg, l), m), m.isRej, Refill(cell, evs[0].result),
                        WritesIfIdle(l, writes), evs[1..]);
    WriteLoopUnfoldsRead(cfg, frame, l, isRej, cell, writes, evs, m);
    RunAckOverRead(Machine(l, isRej), cell, evs, r'.consumed, l.frameNumb);
  }

  /** A read that completes an RR ends the loop with the machine one octet on */
  lemma FollowsOverAck(cfg: Config, frame: seq<byte>, l: Link, isRej: bool, cell: byte, writes: nat,
                       evs: seq<Event>, m: AckMachine)
    requires Budget(cfg, l.alarm, writes) && l.alarm.count < cfg.retries && |evs| > 0 && evs[0].Read?
    requires m == StepAck(Machine(l, isRej), Refill(cell, evs[0].result), l.frameNumb) && m.state == End && !m.isRej
    ensures var r := WriteLoop(cfg, frame, l, isRej, cell, writes, evs);
      Machine(r.link, r.isRej) == RunAck(Machine(l, isRej), Feed(cell, evs[..r.consumed]), l.frameNumb)
  {
    var c := Refill(cell, evs[0].result);
    var r := WriteLoop(cfg, frame, l, isRej, cell, writes, evs);
    assert Machine(ArmIfIdle(cfg, l), isRej) == Machine(l, isRej);
    assert r.consumed == 1 && Machine(r.link, r.isRej) == m;
    FeedTake(cell, evs, 0);
    assert Feed(c, evs[1..][..0]) == [];
    RunAckCons(Machine(l, isRej), c, [], l.frameNumb);
  }

  /** The globals llwrite leaves behind are the RR/REJ machine run over the octets it was fed */
  lemma {:induction false} WriteLoopFollowsMachine(cfg: Config, frame: seq<byte>, l: Link, isRej: bool, cell: byte,
                                                   writes: nat, evs: seq<Event>)
    requires Budget(cfg, l.alarm, writes)
    ensures var r := WriteLoop(cfg, frame, l, isRej, cell, writes, evs);
      Machine(r.link, r.isRej) == RunAck(Machine(l, isRej), Feed(cell, evs[..r.consumed]), l.frameNumb)
    decreases |evs|
  {
    if l.alarm.count < cfg.retries && |evs| > 0 {
      if evs[0].AlarmFires? {
        var lf := l.(alarm := Fire(l.alarm));
        WriteLoopFollowsMachine(cfg, frame, lf, isRej, cell, writes, evs[1..]);
        assert Machine(lf, isRej) == Machine(l, isRej);
        FollowsOverExpiry(cfg, frame, l, isRej, cell, writes, evs);
      } else {
        var c := Refill(cell, evs[0].result);
        var m := StepAck(Machine(l, isRej), c, l.frameNumb);
        if m.state == End && !m.isRej {
          FollowsOverAck(cfg, frame, l, isRej, cell, writes, evs, m);
        } else {
          var l2 := Settle(ArmIfIdle(cfg, l), m);
          WriteLoopFollowsMachine(cfg, frame, l2, m.isRej, c, WritesIfIdle(l, writes), evs[1..]);
          assert Machine(l2, m.isRej) == m && l2.frameNumb == l.frameNumb;
          FollowsOverRead(cfg, frame, l, isRej, cell, writes, evs, m);
        }
      }
    } else {
      var r := WriteLoop(cfg, frame, l, isRej, cell, writes, evs);
      assert r.consumed == 0 && Machine(r.link, r.isRej) == Machine(l, isRej);
      assert Feed(cell, evs[..0]) == [];
    }
  }

  /** llwrite returns a byte count only after the last five octets fed were RR for this frame */
  lemma LlwriteSound(cfg: Config, l: Link, buf: seq<byte>, cell: byte, evs: seq<Event>)
    requires |buf| <= MaxPayloadSize
    requires Llwrite(cfg, l, buf, cell, evs).status.Returned?
    ensures EndsWith(Feed(cell, evs[..Llwrite(cfg, l, buf, cell, evs).consumed]), AckFrame(l.frameNumb))
  {
    var r := Llwrite(cfg, l, buf, cell, evs);
    var l0 := l.(alarm := l.alarm.(count := 0), state := Start);
    WriteLoopFollowsMachine(cfg, CreateFrame(l.frameNumb, buf), l0, false, cell, 0, evs);
    var m := AckMachine(Start, l.control, false);
    RunAckEndsOnAcceptedFrame(m, Feed(cell, evs[..r.consumed]), l.frameNumb);
  }

  /** A completed acknowledgement: END reached with no rejection flag raised */
  predicate Acked(m: AckMachine)
  {
    m.state == End && !m.isRej
  }

  /** A read that completes the acknowledgement ends the loop with that one event consumed */
  lemma WriteLoopReturnsAtRead(cfg: Config, frame: seq<byte>, l: Link, isRej: bool, cell: byte, writes: nat,
                               evs: seq<Event>)
    requires Budget(cfg, l.alarm, writes) && l.alarm.count < cfg.retries && |evs| > 0 && evs[0].Read?
    requires Acked(StepAck(Machine(l, isRej), Refill(cell, evs[0].result), l.frameNumb))
    ensures WriteLoop(cfg, frame, l, isRej, cell, writes, evs).consumed == 1
  {
    assert Machine(ArmIfIdle(cfg, l), isRej) == Machine(l, isRej);
  }

  /** Feeding a read that does not complete the acknowledgement, then octets that do not either */
  lemma NoAckOverRead(m0: AckMachine, cell: byte, evs: seq<Event>, k: nat, n: nat)
    requires 0 < k <= |evs| && evs[0].Read?
    requires var m := StepAck(m0, Refill(cell, evs[0].result), n);
      !Acked(m) && (k == 1 || !Acked(RunAck(m, Feed(Refill(cell, evs[0].result), evs[1..][..k - 1]), n)))
    ensures !Acked(RunAck(m0, Feed(cell, evs[..k]), n))
  {
    var c := Refill(cell, evs[0].result);
    RunAckOverRead(m0, cell, evs, k - 1, n);
    if k == 1 {
      assert Feed(c, evs[1..][..0]) == [];
    }
  }

  /** No read before the last event consumed completed the acknowledgement */
  lemma {:induction false} WriteLoopPassesNoAck(cfg: Config, frame: seq<byte>, l: Link, isRej: bool, cell: byte,
                                                writes: nat, evs: seq<Event>, k: nat)
    requires Budget(cfg, l.alarm, writes)
    requires 0 < k < WriteLoop(cfg, frame, l, isRej, cell, writes, evs).consumed && evs[k - 1].Read?
    ensures !Acked(RunAck(Machine(l, isRej), Feed(cell, evs[..k]), l.frameNumb))
    decreases k
  {
    if evs[0].AlarmFires? {
      var lf := l.(alarm := Fire(l.alarm));
      WriteLoopUnfoldsExpiry(cfg, frame, l, isRej, cell, writes, evs);
      WriteLoopPassesNoAck(cfg, frame, lf, isRej, cell, writes, evs[1..], k - 1);
      RunAckOverExpiry(Machine(l, isRej), cell, evs, k - 1, l.frameNumb);
    } else {
      var c := Refill(cell, evs[0].result);
      var m := StepAck(Machine(l, isRej), c, l.frameNumb);
      if Acked(m) {
        WriteLoopReturnsAtRead(cfg, frame, l, isRej, cell, writes, evs);
        assert false;
      }
      if k > 1 {
        var l2 := Settle(ArmIfIdle(cfg, l), m);
        WriteLoopUnfoldsRead(cfg, frame, l, isRej, cell, writes, evs, m);
        assert Machine(l2, m.isRej) == m && l2.frameNumb == l.frameNumb;
        WriteLoopPassesNoAck(cfg, frame, l2, m.isRej, c, WritesIfIdle(l, writes), evs[1..], k - 1);
      }
      NoAckOverRead(Machine(l, isRej), cell, evs, k, l.frameNumb);
    }
  }

  /** The loop returns at the first read that completes the acknowledgement, not later */
  lemma WriteLoopStopsAtFirstAck(cfg: Config, frame: seq<byte>, l: Link, isRej: bool, cell: byte,
                                 writes: nat, evs: seq<Event>)
    requires Budget(cfg, l.alarm, writes)
    ensures var r := WriteLoop(cfg, frame, l, isRej, cell, writes, evs);
      forall k | 0 < k < r.consumed && evs[k - 1].Read? ::
        !Acked(RunAck(Machine(l, isRej), Feed(cell, evs[..k]), l.frameNumb))
  {
    var r := WriteLoop(cfg, frame, l, isRej, cell, writes, evs);
    forall k | 0 < k < r.consumed && evs[k - 1].Read?
      ensures !Acked(RunAck(Machine(l, isRej), Feed(cell, evs[..k]), l.frameNumb))
    {
      WriteLoopPassesNoAck(cfg, frame, l, isRej, cell, writes, evs, k);
    }
  }

  /** llwrite returns at the first read that completes the acknowledgement for its frame, reading no further */
  lemma LlwriteStopsAtFirstAck(cfg: Config, l: Link, buf: seq<byte>, cell: byte, evs: seq<Event>)
    requires |buf| <= MaxPayloadSize
    ensures var r := Llwrite(cfg, l, buf, cell, evs);
      forall k | 0 < k < r.consumed && evs[k - 1].Read? ::
        !Acked(RunAck(AckMachine(Start, l.control, false), Feed(cell, evs[..k]), l.frameNumb))
  {
    WriteLoopStopsAtFirstAck(cfg, CreateFrame(l.frameNumb, buf), l.(alarm := l.alarm.(count := 0), state := Start),
                             false, cell, 0, evs);
  }

  /**
    When the octets read complete the acknowledgement, the loop returns at the octet that
    completes it, whatever the trace holds after it, with the byte count of the one write
    its first iteration made (if any).
   */
  lemma {:induction false} WriteLoopReturnsOnAck(cfg: Config, frame: seq<byte>, l: Link, isRej: bool, cell: byte,
                                                 writes: nat, bs: seq<byte>, rest: seq<Event>)
    requires Budget(cfg, l.alarm, writes) && l.alarm.count < cfg.retries
    requires |bs| > 0 && Acked(RunAck(Machine(l, isRej), bs, l.frameNumb))
    requires forall k | 0 < k < |bs| :: !Acked(RunAck(Machine(l, isRej), bs[..k], l.frameNumb))
    ensures var r := WriteLoop(cfg, frame, l, isRej, cell, writes, Reads(bs) + rest);
      && r.status == Returned(if WritesIfIdle(l, writes) > 0 then |frame| else 0)
      && r.consumed == |bs| && r.writes == WritesIfIdle(l, writes)
    decreases |bs|
  {
    var n := l.frameNumb;
    var m := StepAck(Machine(l, isRej), bs[0], n);
    var evs := Reads(bs) + rest;
    assert evs[0] == Read(Got(bs[0]));
    assert Machine(ArmIfIdle(cfg, l), isRej) == Machine(l, isRej);
    assert RunAck(Machine(l, isRej), bs, n) == RunAck(m, bs[1..], n);
    if |bs| > 1 {
      assert RunAck(Machine(l, isRej), bs[..1], n) == m by { assert bs[..1][1..] == []; }
      assert !Acked(m);
      var l2 := Settle(ArmIfIdle(cfg, l), m);
      var w1 := WritesIfIdle(l, writes);
      assert Machine(l2, m.isRej) == m && l2.frameNumb == n && l2.alarm.enabled;
      forall k | 0 < k < |bs[1..]|
        ensures !Acked(RunAck(m, bs[1..][..k], n))
      {
        assert bs[..k + 1][1..] == bs[1..][..k];
        assert !Acked(RunAck(Machine(l, isRej), bs[..k + 1], n));
      }
      assert evs[1..] == Reads(bs[1..]) + rest;
      WriteLoopReturnsOnAck(cfg, frame, l2, m.isRej, bs[0], w1, bs[1..], rest);
      WriteLoopUnfoldsRead(cfg, frame, l, isRej, cell, writes, evs, m);
    } else {
      assert bs[1..] == [];
    }
  }

  /**
    The acknowledgement frame answered to the first write completes llwrite after exactly
    five reads, whatever would have been read after it, returning the number of octets
    of the frame it wrote.
   */
  lemma LlwriteAcceptsAck(cfg: Config, l: Link, buf: seq<byte>, cell: byte, rest: seq<Event>)
    requires cfg.retries > 0 && |buf| <= MaxPayloadSize && !l.alarm.enabled
    ensures var r := Llwrite(cfg, l, buf, cell, Reads(AckFrame(l.frameNumb)) + rest);
      && r.status == Returned(|CreateFrame(l.frameNumb, buf)|)
      && r.consumed == 5 && r.writes == 1
  {
    var n := l.frameNumb;
    var f := AckFrame(n);
    var l0 := l.(alarm := l.alarm.(count := 0), state := Start);
    var m0 := Machine(l0, false);
    AcceptedFramesComplete(m0, n);
    forall k | 0 < k < 5
      ensures !Acked(RunAck(m0, f[..k], n))
    {
      RunAckSound(m0, f[..k], n);
    }
    WriteLoopReturnsOnAck(cfg, CreateFrame(n, buf), l0, false, cell, 0, f, rest);
  }

  /**
    Once a rejection has completed, the loop is in this state for good: no alarm pending,
    alarmEnabled TRUE, isRej TRUE. From here llwrite never writes and never returns.
   */
  lemma {:induction false} RejectionIsFinal(cfg: Config, frame: seq<byte>, l: Link, cell: byte, writes: nat,
                                            evs: seq<Event>)
    requires Budget(cfg, l.alarm, writes)
    requires l.alarm.enabled && !l.alarm.armed
    ensures var r := WriteLoop(cfg, frame, l, true, cell, writes, evs);
      !r.status.Returned? && r.writes == writes
    decreases |evs|
  {
    if l.alarm.count < cfg.retries && |evs| > 0 {
      if evs[0].AlarmFires? {
        RejectionIsFinal(cfg, frame, l, cell, writes, evs[1..]);
      } else {
        var c := Refill(cell, evs[0].result);
        var m := StepAck(Machine(l, true), c, l.frameNumb);
        RejectionIsFinal(cfg, frame, Settle(l, m), c, writes, evs[1..]);
      }
    }
  }

  /**
    After a completed rejection frame the loop continues in the state RejectionIsFinal covers.
    Expiries are taken at the loop head only, so this excludes a SIGALRM delivered inside
    the rejecting iteration, which the C handles before the alarm is cancelled.
   */
  lemma RejectionLeadsToFinalState(cfg: Config, frame: seq<byte>, l: Link, isRej: bool, cell: byte,
                                   writes: nat, e: Event)
    requires Budget(cfg, l.alarm, writes) && l.alarm.count < cfg.retries && e.Read?
    ensures var l1 := ArmIfIdle(cfg, l);
      var m := StepAck(Machine(l1, isRej), Refill(cell, e.result), l1.frameNumb);
      m.state == End && m.isRej ==> Settle(l1, m).alarm.enabled && !Settle(l1, m).alarm.armed
  {
  }

  lemma {:induction false} NoExpiryNoWrite(cfg: Config, frame: seq<byte>, l: Link, isRej: bool, cell: byte,
                                           writes: nat, evs: seq<Event>)
    requires Budget(cfg, l.alarm, writes) && l.alarm.enabled
    requires forall i | 0 <= i < |evs| :: evs[i].Read?
    ensures WriteLoop(cfg, frame, l, isRej, cell, writes, evs).writes == writes
    decreases |evs|
  {
    if l.alarm.count < cfg.retries && |evs| > 0 {
      var c := Refill(cell, evs[0].result);
      var m := StepAck(Machine(l, isRej), c, l.frameNumb);
      if !(m.state == End && !m.isRej) {
        NoExpiryNoWrite(cfg, frame, Settle(l, m), m.isRej, c, writes, evs[1..]);
      }
    }
  }

  /**
    When no alarm expires within sendSetFrame's returning iteration, sendSetFrame returns 0
    with its alarm still pending and alarmEnabled TRUE, so the llwrite that follows sends
    nothing until that alarm expires.
   */
  lemma FirstWriteWaitsForOpeningAlarm(cfg: Config, l: Link, opening: seq<Event>, buf: seq<byte>,
                                       cell: byte, evs: seq<Event>)
    requires SendSetFrame(cfg, l, opening).status == Returned(0)
    requires forall i | 0 <= i < |evs| :: evs[i].Read?
    ensures Llwrite(cfg, SendSetFrame(cfg, l, opening).link, buf, cell, evs).writes == 0
  {
    var l' := SendSetFrame(cfg, l, opening).link;
    if |buf| <= MaxPayloadSize {
      NoExpiryNoWrite(cfg, CreateFrame(l'.frameNumb, buf), l'.(alarm := l'.alarm.(count := 0), state := Start),
                      false, cell, 0, evs);
    }
  }

  /** Fed one octet over and over from START, the RR/REJ machine never gets past FLAG_RCV */
  predicate Idle(m: AckMachine, x: byte)
  {
    m.state == Start || (x == Flag && (m.state == FlagRcv || m.state == Bogus))
  }

  /** One unanswered round of llwrite: the frame is written, nothing arrives, the alarm expires */
  lemma WriteSilentRound(cfg: Config, frame: seq<byte>, l: Link, cell: byte, writes: nat, rest: seq<Event>)
    requires cfg.timeout != 0 && 0 <= l.alarm.count < cfg.retries
    requires !l.alarm.enabled && writes == l.alarm.count
    requires Idle(Machine(l, false), cell)
    ensures var m := StepAck(Machine(l, false), cell, l.frameNumb);
      var l' := l.(alarm := AlarmState(false, l.alarm.count + 1, false), state := m.state, control := m.control);
      var r := WriteLoop(cfg, frame, l, false, cell, writes, [Read(Nothing)] + ([AlarmFires] + rest));
      var r' := WriteLoop(cfg, frame, l', false, cell, writes + 1, rest);
      && Idle(m, cell) && !m.isRej
      && r.status == r'.status && r.writes == r'.writes
  {
    var m := StepAck(Machine(l, false), Refill(cell, Nothing), l.frameNumb);
    assert Idle(m, cell) && !m.isRej && m.state != End && Refill(cell, Nothing) == cell;
    var l2 := Settle(ArmIfIdle(cfg, l), m);
    WriteLoopRead(cfg, frame, l, false, cell, writes, Nothing, [AlarmFires] + rest, m);
    WriteLoopExpiry(cfg, frame, l2, m.isRej, Refill(cell, Nothing), WritesIfIdle(l, writes), rest);
    assert l2.(alarm := Fire(l2.alarm)) == l.(alarm := AlarmState(false, l.alarm.count + 1, false),
                                              state := m.state, control := m.control);
  }

  lemma {:induction false} WriteLoopSpinsOnSilence(cfg: Config, frame: seq<byte>, l: Link, cell: byte,
                                                   writes: nat, k: nat)
    requires cfg.timeout != 0 && 0 <= l.alarm.count && k == cfg.retries - l.alarm.count
    requires !l.alarm.enabled && writes == l.alarm.count
    requires Idle(Machine(l, false), cell)
    ensures var r := WriteLoop(cfg, frame, l, false, cell, writes, Silence(k));
      r.status == Hung && r.writes == cfg.retries
    decreases k
  {
    if k > 0 {
      var m := StepAck(Machine(l, false), cell, l.frameNumb);
      WriteSilentRound(cfg, frame, l, cell, writes, Silence(k - 1));
      WriteLoopSpinsOnSilence(cfg, frame, l.(alarm := AlarmState(false, l.alarm.count + 1, false),
                                             state := m.state, control := m.control), cell, writes + 1, k - 1);
    }
  }

  /**
    On a channel that never answers, llwrite sends the frame exactly nRetransmissions
    times and then spins forever: its `return -1` is never reached.
   */
  lemma SilentChannelHangsLlwrite(cfg: Config, l: Link, buf: seq<byte>, cell: byte)
    requires cfg.timeout != 0 && cfg.retries >= 0 && !l.alarm.enabled
    requires |buf| <= MaxPayloadSize
    ensures var r := Llwrite(cfg, l, buf, cell, Silence(cfg.retries));
      r.status == Hung && r.writes == cfg.retries
  {
    WriteLoopSpinsOnSilence(cfg, CreateFrame(l.frameNumb, buf), l.(alarm := l.alarm.(count := 0), state := Start),
                            cell, 0, cfg.retries);
  }

  /** Each successful llwrite flips the sequence bit the next frame carries */
  lemma SuccessfulWritesAlternate(cfg: Config, l: Link, buf: seq<byte>, cell: byte, evs: seq<Event>,
                                  next: seq<byte>)
    requires |buf| <= MaxPayloadSize
    requires Llwrite(cfg, l, buf, cell, evs).status.Returned?
    ensures CreateFrame(Llwrite(cfg, l, buf, cell, evs).link.frameNumb, next)[2] != CreateFrame(l.frameNumb, buf)[2]
  {
    SequenceBitAlternates(l.frameNumb);
  }
}

=== FILE: wire.dfy ===
/**
  Wire constants of the link layer (code_project/include/link_layer.h):
  delimiter and escape octets, address and command bytes, the sequence
  macro N(s), the payload ceiling, and the recogniser state enumeration.
 */
module Wire {

  type byte = bv8

  datatype Option<T> = None | Some(value: T)

  const Flag: byte := 0x7E
  const Esc: byte := 0x7D
  /** XOR mask applied to an escaped octet */
  const StuffMask: byte := 0x20

  const ASender: byte := 0x03
  const AReceiver: byte := 0x01
  const CSet: byte := 0x03
  const CUa: byte := 0x07
  /** C_RR0 and C_REJ are plain `int` macros; the recognisers do int arithmetic on them */
  const CRr0: int := 0xAA
  const CRej: int := 0x54

  const MaxPayloadSize: int := 1000

  /** N(s) = (s % 2) << 6: the sequence bit carried in bit 6 of an information frame's control byte */
  function N(s: nat): (r: byte)
    ensures r == 0x00 || r == 0x40
    ensures r == 0x00 <==> s % 2 == 0
  {
    ((s % 2) * 64) as byte
  }

  /** Consecutive frame numbers carry different sequence bits; numbers two apart carry the same one */
  lemma SequenceBitAlternates(s: nat)
    ensures N(s + 1) != N(s)
    ensures N(s + 2) == N(s)
  {
  }

  /**
    The `state` enumeration START..END, plus `Bogus`: the value FLAG (0x7E) that the
    recognisers store into the state variable although it names no enumerator.
   */
  datatype State = Start | FlagRcv | ARcv | CRcv | Bcc1Ok | Data | Bcc2Ok | End | Bogus

  /** The integer held by the C state variable in each model state */
  function StateValue(s: State): (v: int)
    ensures s != Bogus <==> 0 <= v < 8
    ensures s == Bogus ==> v == Flag as int
  {
    match s
    case Start => 0
    case FlagRcv => 1
    case ARcv => 2
    case CRcv => 3
    case Bcc1Ok => 4
    case Data => 5
    case Bcc2Ok => 6
    case End => 7
    case Bogus => Flag as int
  }

  /** Distinct model states are distinct C values, so the extra state is forced */
  lemma StateValueInjective(s: State, t: State)
    ensures StateValue(s) == StateValue(t) <==> s == t
  {
  }
}
